=== FILE: README.md ===
# Guild of Students customisation report fetcher, in Dafny

This project models the decision and transformation core of `css-reports`. That service logs into the Guild of Students sales-reports portal with a caller-supplied `.ASPXAUTH` token. It then:

1. harvests every `<input>` of the sales-reports page that has a non-empty name and value (hidden fields and submit buttons alike), and the page's cookies;
2. posts the report-generation postback with a date range;
3. classifies the response and extracts the `ExportUrlBase` link;
4. downloads the CSV export and keeps the first four lines plus the rows whose product field contains the requested product.

The Flask endpoint in front of it validates the query string, sanitises the product key, and maps the outcome to an HTTP status.

The portal is never contacted. Its three exchanges appear as the pure functions of a `Portal` value:

- the GET of the sales-reports page;
- the postback;
- the CSV download.

The parsed HTML is abstract data:

- a sequence of inputs with optional `name`/`value`;
- a title that is missing, text-less or text;
- the report viewer's text, if the div exists.

Every exception the modelled steps of the report workflow in report.py raise is a `Failures.ReportError`, and `Failures.Message` gives the text `str(e)` produces. The endpoint's own failure, the TypeError raised when app.py calls the workflow without a report type, is `App.MissingReportType`.

Modules and files:

| file | module | models |
|---|---|---|
| common.dfy | `Common` | `Result`/`Option`, Python truthiness, `str.isspace`, `in`, `strip()`, `str.replace` |
| dates.dfy | `Dates` | `strftime("%d/%m/%Y")`, `strftime("%H:%M")`, `strptime(..., "%Y-%m-%d")` |
| failures.dfy | `Failures` | the raised exceptions and their messages |
| context.dfy | `Context` | `get_msl_context` |
| postback.dfy | `Postback` | the postback form data |
| export_url.dfy | `ExportUrl` | `re.search(r'ExportUrlBase":"(.*?)"', ...)`, the unescaping, the CSV URL |
| report.dfy | `Report` | `fetch_report_url_and_cookies` and `get_product_customisations` |
| csv_filter.dfy | `CsvFilter` | the four-header-line CSV filter, as a function and as the streaming loop |
| app.dfy | `App` | the `/customisation_report` endpoint |

Two behaviours of the code are easy to misread:

- **Header lines.** The CSV filter protects exactly 4 header lines (`range(4)`). A fifth header line is filtered like a data row. `CsvFilter.FiveHeaderLines` shows this.
- **Doubled slash.** The export URL is built by plain concatenation onto `https://guildofstudents.com/`. An export base that starts with `/` therefore gives `https://guildofstudents.com//Org/...`. `ExportUrl.OrgPathScenario` and `ExportUrl.SingleEscapedSlashScenario` show this.

## Model

| member | source | states |
|---|---|---|
| Context.HarvestDomain | css-reports/report.py:56-59 | a field name is harvested exactly when some input carries that non-empty name together with a non-empty value |
| Context.HarvestLastWins | css-reports/report.py:56-59 | when several inputs share a name, the harvested value is the value of the last of them |
| Context.StampCookies | css-reports/report.py:61-65 | the cookie jar maps `.ASPXAUTH` to the caller's token whatever the server sent; every other server cookie keeps its value, and no other cookie is added |
| Context.BuildContext | css-reports/report.py:35-74 | the context is produced exactly when the page has a text title without "Login"; a "Login" title gives the login-redirect error, a page without a title the missing-title error, and a title without text the title-not-text error; the context's fields are the harvested inputs; its cookie jar carries the token under `.ASPXAUTH`, keeps every other cookie the server sent with its value, and holds no other cookie |
| Context.LoginTitleRefused | css-reports/report.py:67-70 | a page titled "Login - Guild of Students" is refused with the login-redirect error, whatever its inputs and cookies |
| Postback.PostbackData | css-reports/report.py:91-103 | the postback's keys are the harvested keys together with the six overlay keys, some of which may already have been harvested; the date, time, event-target and event-argument keys hold the formatted from/to values, the prefix followed by the report type, and the empty string; every other harvested entry is unchanged |
| Dates.Pad | css-reports/report.py:92-95 | a zero-padded field has exactly the width asked for and only digits |
| Dates.PadReadsBack | css-reports/report.py:92-95 | a zero-padded field reads back as the number it renders |
| Dates.PadDigitsValue | css-reports/report.py:92-95 | every digit string is the zero-padded rendering of the number it denotes, so padding loses nothing |
| Dates.FormatDateLayout | css-reports/report.py:92-94 | a date renders as ten characters `DD/MM/YYYY`, with the slashes at positions 2 and 5, and each digit field reads back as day, month and year |
| Dates.FormatTimeLayout | css-reports/report.py:93-95 | a time renders as five characters `HH:MM`, and the two fields read back as hour and minute |
| Dates.ParseIsoDate | css-reports/app.py:47-51 | an accepted `YYYY-MM-DD` text gives a valid calendar date at midnight |
| Dates.ParseFormatIsoDate | css-reports/app.py:47-51 | every valid date at midnight, written as `YYYY-MM-DD`, parses back to itself |
| Dates.FormatParseIsoDate | css-reports/app.py:47-51 | every text the parser accepts is exactly the canonical rendering of the date it yields |
| Common.ContainsIffOccurs | css-reports/report.py:191 | Python's substring test `p in s` holds exactly when `p` occurs at some index of `s` |
| Common.StripSpec | css-reports/report.py:190 | `strip()` removes whitespace only from the two ends, and leaves no whitespace at either end of a non-empty result |
| Common.ReplaceAllAbsent | css-reports/report.py:139 | `replace` with a pattern that does not occur returns the text unchanged |
| Common.ReplaceAllFirstOccurrence | css-reports/report.py:139 | when no occurrence of the pattern starts inside `u`, `replace` on `u + pat + v` gives `u + rep` followed by the replacement of `v`: occurrences are taken left to right and do not overlap |
| ExportUrl.CloseQuoteSpec | css-reports/report.py:133 | the lazy `(.*?)"` stops at the first quote after the marker, and only if no newline comes before it |
| ExportUrl.MatchAtSpec | css-reports/report.py:133 | the pattern matches at index `p` with capture `cap` exactly when the marker, `cap` and a quote sit at `p`, and `cap` has no quote or newline |
| ExportUrl.SearchFromFound | css-reports/report.py:133 | a successful search returns the capture at the first index where the pattern matches |
| ExportUrl.SearchFromAbsent | css-reports/report.py:133-137 | the search fails exactly when the pattern matches at no index from the start point on |
| ExportUrl.ExportBaseLeftmost | css-reports/report.py:133 | a found export base is the capture of a complete match with no complete match further left, and it contains no quote |
| ExportUrl.ExportBaseAbsent | css-reports/report.py:133-137 | no export base is found exactly when no complete `ExportUrlBase":"..."` occurrence exists in the body |
| ExportUrl.UnescapeAmpersands | css-reports/report.py:139 | replacing the six-character escape `\u0026` by `&` in the portal's escaping of a backslash-free text leaves only the slashes escaped |
| ExportUrl.UnescapeSlashes | css-reports/report.py:139 | replacing `\/` by `/` then restores the text |
| ExportUrl.UnescapeEscape | css-reports/report.py:139 | the two replacements, in the code's order, undo the portal's JSON escaping of `&` and `/` for any backslash-free text |
| ExportUrl.UnescapeRawPrefix | css-reports/report.py:139 | a backslash-free prefix followed by the escaped form of a backslash-free text is unescaped to the prefix followed by the text, so a base whose leading slashes are not escaped is also restored |
| ExportUrl.EscapePlain | css-reports/report.py:133 | escaping introduces no quote or newline, so an escaped base is captured whole |
| ExportUrl.CsvUrl | css-reports/report.py:145 | the download URL is `https://guildofstudents.com/`, then the base verbatim, then `CSV` |
| ExportUrl.LeadingExportBase | css-reports/report.py:133-145 | a body that opens with the marker and the escaped form of `x` yields `x` as the export base and the download URL for `x` |
| ExportUrl.OrgPathScenario | css-reports/report.py:133-145 | a body carrying the portal's escaping of `/Org/123/Report/abc&x=1` yields `https://guildofstudents.com//Org/123/Report/abc&x=1CSV` |
| ExportUrl.PartlyEscapedExportBase | css-reports/report.py:133-145 | a body that opens with the marker, a raw prefix `a` and the escaped form of `y` yields the whole of `a` and the escaped `y` as the export base, and the download URL for `a + y` |
| ExportUrl.SingleEscapedSlashScenario | css-reports/report.py:133-145 | the base `/Org/123/Report\/abc\u0026x=1`, where only the last slash and the ampersand are escaped, is captured whole and yields `https://guildofstudents.com//Org/123/Report/abc&x=1CSV` |
| Report.ClassifyResponse | css-reports/report.py:113-145 | the checks run in this order, and the first that applies decides: a non-200 postback gives `(None, {})`; a missing or blank report viewer fails; "no transactions" in the body fails; a missing match fails; an empty unescaped base fails. Otherwise the link is the CSV URL of the unescaped first match, returned with the cookies |
| Report.FetchReportUrl | css-reports/report.py:77-145 | an error building the session context is returned unchanged; after that the only errors are the classification's own; once the context is built, a postback answered with a non-200 status gives `(None, {})`; an outcome without a URL has no cookies; a found URL starts with the portal prefix and comes with a cookie jar whose `.ASPXAUTH` is the caller's token |
| Report.PostbackFindsReport | css-reports/report.py:113-145 | once the context is built, the step returns a URL exactly when the postback answers 200, the report viewer has rendered, the body has no "no transactions" notice, and the export base is found and unescapes to a non-empty text; the link is then `https://guildofstudents.com/` + the unescaped base + `CSV`, with the context's cookie jar |
| Report.PostbackCarriesRequest | css-reports/report.py:89-111 | the step fetches only the sales-reports page and posts only to it, with the caller's token and a form naming the report type and both dates: two portals that answer the fetch of that page with the token alike, and answer such postbacks alike, give the same outcome, whatever they answer to any other request |
| Report.ExportUrlFromLeftmostMatch | css-reports/report.py:133-145 | a link found by classification comes from the leftmost complete match in the body, and its unescaped base is non-empty |
| Report.EscapedExportBase | css-reports/report.py:124-145 | a rendered report with transactions whose body opens with the escaped base of a non-empty `x` links to `https://guildofstudents.com/` + `x` + `CSV`, together with the session cookies |
| Report.NoMatchMeansNotFound | css-reports/report.py:133-137 | a rendered report with transactions but no complete match fails with the export-URL-not-found error |
| Report.LoginPageStopsWorkflow | css-reports/report.py:89-111 | when the sales-reports page is the login page, the workflow fails with the login error whatever the postback and the download would answer, so neither request matters |
| Report.FailedPostbackFails | css-reports/report.py:113-167 | once the context is built, a non-200 postback yields `(None, {})`, and the workflow then fails with the missing-URL error |
| Report.GetProductCustomisations | css-reports/report.py:148-192 | every error of the URL step, such as the no-transactions error, comes back unchanged; a missing URL gives the missing-URL error; a found link whose CSV download answers a non-200 status gives the file-status error; a found link whose download answers 200 gives exactly the file `customisations.csv` holding the filtered lines of the downloaded CSV |
| Report.NoTransactionsReported | css-reports/report.py:129-131 | a rendered report whose body says "no transactions" ends the workflow with the no-transactions error, whatever the download would answer |
| Report.DeliveredReport | css-reports/report.py:157-192 | a produced report is the filter applied to a CSV that answered 200. It was downloaded from a URL that starts with the portal prefix and ends in `CSV`, with a cookie jar whose `.ASPXAUTH` is the caller's token |
| CsvFilter.FirstField | css-reports/report.py:190 | `split(",")[0]` is the longest prefix of the line without a comma: a comma or the end of the line follows it |
| CsvFilter.SelectRows | css-reports/report.py:189-192 | the kept data rows all satisfy the filter and form a subsequence of the data rows |
| CsvFilter.SelectRowsExactly | css-reports/report.py:189-192 | the kept rows are, in order and each once, exactly the rows whose stripped first field contains the key |
| CsvFilter.FilterLaw | css-reports/report.py:184-192 | the output is the input with lines deleted: line `i` survives exactly when it is one of the first four or its stripped first field contains the key |
| CsvFilter.FilterKeepsHeader | css-reports/report.py:184-186 | the first four lines, or all lines if there are fewer, are copied verbatim; the output is a subsequence of the input and never longer |
| CsvFilter.CopyHeader | css-reports/report.py:184-186 | the four `readline` calls copy the first four lines, or all lines if there are fewer, and stop at the right position |
| CsvFilter.StreamFilter | css-reports/report.py:184-192 | the streaming loop (four `readline` calls, then line-by-line filtering) writes exactly the filtered file |
| CsvFilter.KeepsRowLedByKey | css-reports/report.py:190-191 | a row whose first field is the key itself, with no surrounding whitespace, is kept |
| CsvFilter.DropsRowWithShortField | css-reports/report.py:190-191 | a row whose first field is shorter than the key is dropped |
| CsvFilter.FiveHeaderLines | css-reports/report.py:184-192 | with five header lines, the rows `Ball 2024,5,10.00` and `Hoodie,3,20.00`, and the key `Ball 2024`, the output is the first four header lines and the Ball row; a short fifth header line is dropped |
| App.ValidateRequest | css-reports/app.py:35-54 | the checks run in order (credentials, at least one product, not both, dates), with the 400 message of the first that fails. A validated request carries the token, the organisation, the sanitised product text, and the parsed dates or their defaults |
| App.DefaultDates | css-reports/app.py:47-51 | the defaults `2000-01-01` and `2100-01-01` parse to 1 January 2000 and 1 January 2100 at midnight |
| App.ValidatedKey | css-reports/app.py:53-54 | the filter key is `product_name` if it is non-empty, otherwise `product_names`, in both cases sanitised |
| App.DateParameter | css-reports/app.py:47-51 | an absent or empty date parameter parses to the default's date; a given one parses only if it is exactly the `YYYY-MM-DD` rendering of its date |
| App.ValidatedDates | css-reports/app.py:47-51 | a missing or empty start or end date stands for its default; a given date is accepted only as the exact `YYYY-MM-DD` rendering of the date it yields; both dates are at midnight |
| App.Sanitise | css-reports/app.py:54 | the sanitised key is a subsequence of the input, never longer, and shorter by an even number of characters, since characters go in pairs |
| App.SanitiseDeletesPairs | css-reports/app.py:54 | the sanitised key is the input with a set of pairs deleted: every deleted pair is a non-word character followed by whitespace, the pairs do not overlap, every other position survives in order, and no surviving position starts such a pair |
| App.DeletionDetermined | css-reports/app.py:54 | those conditions fix the result: two deletions from the same key that both meet them give the same string |
| App.SanitiseIsTheDeletion | css-reports/app.py:54 | any string obtained from the key by deleting pairs as described is the sanitised key |
| App.SanitiseIdentity | css-reports/app.py:54 | the key is unchanged exactly when no non-word character is immediately followed by whitespace |
| App.SanitiseKeepsSpacelessKeys | css-reports/app.py:54 | a key without whitespace is unchanged |
| App.SanitiseKeepsProductName | css-reports/app.py:54 | `Ball 2024` is unchanged, since its space follows a letter |
| App.FetchCustomisationReport | css-reports/app.py:56-77 | as written: an invalid query gets a 400 with its validation message, and every valid query gets a 500 with Python's missing-`report_type` TypeError message; no file is ever sent |
| App.FetchCustomisationReportWith | css-reports/app.py:56-77 | with the report type passed through: a 400 exactly for an invalid query; a workflow exception gives a 500 with its message; otherwise a 200 with `customisations.csv` holding the filtered lines |
| App.ReplyTo | css-reports/app.py:67-77 | a workflow exception gives a 500 carrying its message; a file with an empty path gives a 500 with the generation-failed message; otherwise a 200 sending the file as an attachment; no other status occurs, and only a 200 carries an attachment |
| App.AsWrittenNeverDelivers | css-reports/app.py:60-75 | whenever the corrected endpoint would deliver the report, the endpoint as written answers instead with a 500 carrying the missing-`report_type` TypeError message |
| App.DeliveredAttachment | css-reports/app.py:53-75 | a delivered attachment is the four-header filter, with the sanitised product key, of a CSV downloaded with the query's `auth_cookie` as `.ASPXAUTH` |

## Left out

- Network I/O is not modelled: the aiohttp sessions, the GET/POST/download calls, the cache-control headers and the async streaming reads. Their results are the inputs a `Portal` supplies. The GET of the sales-reports page is not status-checked by the code, and the model does not check it either.
- HTML parsing is left out. BeautifulSoup's `find_all("input")`, the `isinstance(field, bs4.Tag)` test, `title.string` and the `report_viewer_wrapper` lookup are taken as already parsed: inputs, a three-way `Title`, and the viewer text.
- The `Morsel is not None` check on cookies is left out. The server's cookies arrive as a plain map of names to values, and cookie domains and paths are not modelled.
- The general regular-expression engine is left out. Only the one `ExportUrlBase":"(.*?)"` search and the `\W\s` substitution are modelled, directly.
- App.Sanitise: `\W` is approximated as "not an ASCII letter, digit or underscore". Python treats non-ASCII letters and digits as word characters too. `\s` is Python's full whitespace set.
- UTF-8 decoding of the downloaded byte lines is left out. Lines are strings, and a line keeps whatever line terminator it came with. In the code, a line that is not valid UTF-8 raises UnicodeDecodeError, and the endpoint answers it with a 500 carrying the exception's text; the model never produces that reply. The same holds for the exceptions the HTTP calls and the file `open` can raise.
- The model does not write `customisations.csv` to disk, and it leaves out `send_file` and the `os.remove` cleanup. These are file-system effects, and the shared fixed file name is a concurrency concern that is not modelled.
- Flask routing, the redirects of `/` and of 404s, `app.run`, and all `print` logging are left out. main.py is not part of this model: it is an earlier revision of `get_msl_context`.
- Dates.ParseIsoDate accepts only the strict ten-character `YYYY-MM-DD` form with years 1 to 9999. `strptime` is more lenient: it also accepts shorter or unpadded fields such as `2024-1-5`, and the model rejects those.
- Dates.FormatDateLayout assumes four-digit zero-padded years. Python's `%Y` rendering of years below 1000 is platform-dependent.
- Dates.Pad states only the width and the digits of its result. That the field reads back as the number is proved separately, as Dates.PadReadsBack, so that the arithmetic stays out of the contracts of every function that formats a date.
- Common.ReplaceAll states only that replacing by a shorter text never lengthens the string. Its behaviour is given by the lemmas on absent occurrences and on the first occurrence.

## Findings

| source | as written | input that shows it | evidently intended | confidence | as-written member | corrected member |
|---|---|---|---|---|---|---|
| css-reports/app.py:60-66 | `get_product_customisations` is called without `report_type`, which css-reports/report.py:154 requires with no default, so the call raises a TypeError and every valid request is answered with a 500 | `auth_cookie=t&organisation_id=1&product_name=Ball` | the endpoint passes a report type through to the workflow and sends the filtered CSV on success | high; not executed | App.FetchCustomisationReport | App.FetchCustomisationReportWith |

=== FILE: app.dfy ===
/**
 * The `/customisation_report` endpoint of css-reports/app.py: query
 * validation, the product-key sanitiser, and the mapping of the report
 * workflow's outcome to an HTTP reply.
 */
module App {

  import opened Common
  import opened Failures
  import opened Dates
  import opened Context
  import opened CsvFilter
  import opened Report

  /** The request's query string, by parameter name. */
  type Query = map<string, string>

  /** `request.args.get(k)`. */
  function Arg(q: Query, k: string): Option<string> {
    if k in q then Some(q[k]) else None
  }

  const MissingCredentials: string := "An auth token and organisation id are required."
  const MissingProduct: string := "Either product_name or product_names is required."
  const BothProducts: string := "Both product_name and product_names cannot be provided."
  const BadDate: string := "Invalid date format. Use YYYY-MM-DD."
  const GenerationFailed: string := "Failed to generate the customisation report"

  /** What `str(e)` reads for the call that leaves out `report_type`. */
  const MissingReportType: string := "get_product_customisations() missing 1 required positional argument: 'report_type'"

  const DefaultStart: string := "2000-01-01"
  const DefaultEnd: string := "2100-01-01"

  /** A validated request. */
  datatype ReportRequest = ReportRequest(auth: string, org: string, key: string, from: DateTime, to: DateTime)

  /** A JSON `{"error": ...}` body, or the report file sent as an attachment. */
  datatype Body = JsonError(message: string) | Attachment(path: string, lines: seq<string>)

  datatype Reply = Reply(status: int, body: Body)

  /** `re.sub(r"\W\s", "", s)` removes the pair starting at `i`. */
  predicate PairAt(s: string, i: int) {
    0 <= i && i + 1 < |s| && !IsWordChar(s[i]) && IsSpace(s[i + 1])
  }

  /**
   * `re.sub(r"\W\s", "", s)`: scanning left to right, a non-word character
   * followed by whitespace is deleted together with it, and the scan resumes
   * after the pair.
   */
  function Sanitise(s: string): (r: string)
    ensures |r| <= |s| && (|s| - |r|) % 2 == 0
    ensures IsSubsequence(r, s)
    decreases |s|
  {
    if PairAt(s, 0) then
      var r := Sanitise(s[2..]);
      assert IsSubsequence(r, s[1..]) by {
        assert s[1..][1..] == s[2..];
      }
      r
    else if |s| == 0 then ""
    else [s[0]] + Sanitise(s[1..])
  }

  /** Position `i` belongs to the pair that starts at `i` or at `i - 1`. */
  predicate InPair(pairs: seq<int>, i: int) {
    i in pairs || i - 1 in pairs
  }

  /**
   * `r` is `s` with the pairs starting at `pairs` deleted: the pairs are
   * matches, listed left to right without overlapping, the surviving
   * positions `kept` are exactly the positions outside every pair, and no
   * match starts at a surviving position. The last condition is what makes
   * the scan greedy: a match is never skipped.
   */
  predicate DeletesPairs(s: string, r: string, pairs: seq<int>, kept: seq<int>) {
    && Embeds(r, s, kept)
    && (forall i :: 0 <= i < |s| ==> (i in kept <==> !InPair(pairs, i)))
    && (forall j :: 0 <= j < |pairs| ==> PairAt(s, pairs[j]))
    && (forall j, j' :: 0 <= j < j' < |pairs| ==> pairs[j] + 2 <= pairs[j'])
    && (forall i :: i in kept ==> !PairAt(s, i))
  }

  /** The substitution deletes exactly the matched pairs, left to right. */
  lemma {:induction false} SanitiseDeletesPairs(s: string) returns (pairs: seq<int>, kept: seq<int>)
    ensures DeletesPairs(s, Sanitise(s), pairs, kept)
    decreases |s|
  {
    if PairAt(s, 0) {
      var p', k' := SanitiseDeletesPairs(s[2..]);
      pairs, kept := PairStep(s, p', k');
    } else if |s| == 0 {
      pairs, kept := [], [];
    } else {
      var p', k' := SanitiseDeletesPairs(s[1..]);
      pairs, kept := KeepStep(s, p', k');
    }
  }

  lemma KeepStepAt(s: string, p': seq<int>, k': seq<int>, i: int)
    requires |s| > 0 && 0 <= i < |s|
    requires forall x :: 0 <= x < |s| - 1 ==> (x in k' <==> !InPair(p', x))
    requires forall j :: 0 <= j < |p'| ==> 0 <= p'[j]
    ensures i in [0] + Shift(k', 1) <==> !InPair(Shift(p', 1), i)
  {
    ShiftMembers(k', 1, i);
    ShiftMembers(p', 1, i);
    ShiftMembers(p', 1, i - 1);
    if i >= 1 {
      assert i - 1 in k' <==> !InPair(p', i - 1);
    } else {
      assert i - 1 !in p' && i - 2 !in p';
    }
  }

  /**
   * The conditions leave no freedom: any two deletions of pairs from the
   * same key that satisfy them give the same result, so they describe the
   * substitution completely.
   */
  lemma DeletionDetermined(s: string, r1: string, p1: seq<int>, k1: seq<int>, r2: string, p2: seq<int>, k2: seq<int>)
    requires DeletesPairs(s, r1, p1, k1) && DeletesPairs(s, r2, p2, k2)
    ensures r1 == r2
  {
    forall x
      ensures x in k1 <==> x in k2
    {
      if 0 <= x < |s| {
        SameDecisionAt(s, r1, p1, k1, r2, p2, k2, x);
      }
    }
    SortedSameMembers(k1, k2);
  }

  /** `Sanitise` is the only result that deletes matched pairs as described. */
  lemma SanitiseIsTheDeletion(s: string, r: string, pairs: seq<int>, kept: seq<int>)
    ensures DeletesPairs(s, r, pairs, kept) ==> r == Sanitise(s)
  {
    var p0, k0 := SanitiseDeletesPairs(s);
    if DeletesPairs(s, r, pairs, kept) {
      DeletionDetermined(s, r, pairs, kept, Sanitise(s), p0, k0);
    }
  }

  /** Both deletions decide every position alike, by induction from the left. */
  lemma {:induction false} SameDecisionAt(s: string, r1: string, p1: seq<int>, k1: seq<int>, r2: string, p2: seq<int>, k2: seq<int>, i: int)
    requires DeletesPairs(s, r1, p1, k1) && DeletesPairs(s, r2, p2, k2)
    requires 0 <= i < |s|
    ensures (i in p1 <==> i in p2) && (i in k1 <==> i in k2)
    decreases i
  {
    if i > 0 {
      SameDecisionAt(s, r1, p1, k1, r2, p2, k2, i - 1);
    }
    DecisionAt(s, r1, p1, k1, i);
    DecisionAt(s, r2, p2, k2, i);
  }

  /**
   * What happens to position `i` depends only on whether a pair started
   * just before it and on whether a match starts at it.
   */
  lemma DecisionAt(s: string, r: string, pairs: seq<int>, kept: seq<int>, i: int)
    requires DeletesPairs(s, r, pairs, kept) && 0 <= i < |s|
    ensures i == 0 ==> i - 1 !in pairs
    ensures i - 1 in pairs ==> i !in pairs && i !in kept
    ensures i - 1 !in pairs && PairAt(s, i) ==> i in pairs && i !in kept
    ensures i - 1 !in pairs && !PairAt(s, i) ==> i !in pairs && i in kept
  {
    StartsArePairs(s, r, pairs, kept, -1);
    if i - 1 in pairs {
      NoAdjacentStarts(s, r, pairs, kept, i - 1);
    }
    if !PairAt(s, i) {
      StartsArePairs(s, r, pairs, kept, i);
    }
  }

  /** A pair start is not followed by another one. */
  lemma NoAdjacentStarts(s: string, r: string, pairs: seq<int>, kept: seq<int>, p: int)
    requires DeletesPairs(s, r, pairs, kept) && p in pairs
    ensures p + 1 !in pairs
  {
    var j :| 0 <= j < |pairs| && pairs[j] == p;
    forall j' | 0 <= j' < |pairs|
      ensures pairs[j'] != p + 1
    {
      if j < j' {
        assert pairs[j] + 2 <= pairs[j'];
      } else if j' < j {
        assert pairs[j'] + 2 <= pairs[j];
      }
    }
  }

  /** Only a position where a match starts can be a pair start. */
  lemma StartsArePairs(s: string, r: string, pairs: seq<int>, kept: seq<int>, i: int)
    requires DeletesPairs(s, r, pairs, kept) && !PairAt(s, i)
    ensures i !in pairs
  {
    forall j | 0 <= j < |pairs|
      ensures pairs[j] != i
    {
      assert PairAt(s, pairs[j]);
    }
  }

  /** Two strictly increasing sequences with the same members are equal. */
  lemma {:induction false} SortedSameMembers(a: seq<int>, b: seq<int>)
    requires forall j, j' :: 0 <= j < j' < |a| ==> a[j] < a[j']
    requires forall j, j' :: 0 <= j < j' < |b| ==> b[j] < b[j']
    requires forall x :: x in a <==> x in b
    ensures a == b
    decreases |a|
  {
    assert |a| > 0 ==> a[0] in a;
    assert |b| > 0 ==> b[0] in b;
    if |a| > 0 && |b| > 0 {
      assert a[0] == b[0] by {
        var j :| 0 <= j < |b| && b[j] == a[0];
        var j' :| 0 <= j' < |a| && a[j'] == b[0];
        assert b[0] <= b[j] && a[0] <= a[j'];
      }
      SortedTails(a, b);
      SortedSameMembers(a[1..], b[1..]);
      assert a == [a[0]] + a[1..] && b == [b[0]] + b[1..];
    }
  }

  /** With the same least element, the tails have the same members too. */
  lemma SortedTails(a: seq<int>, b: seq<int>)
    requires |a| > 0 && |b| > 0 && a[0] == b[0]
    requires forall j, j' :: 0 <= j < j' < |a| ==> a[j] < a[j']
    requires forall j, j' :: 0 <= j < j' < |b| ==> b[j] < b[j']
    requires forall x :: x in a <==> x in b
    ensures forall x :: x in a[1..] <==> x in b[1..]
  {
    forall x
      ensures x in a[1..] <==> x in b[1..]
    {
      if x in a[1..] {
        var j :| 0 <= j < |a[1..]| && a[1..][j] == x;
        assert a[0] < a[j + 1] && x in a;
        var i :| 0 <= i < |b| && b[i] == x;
        assert i != 0 && b[1..][i - 1] == x;
      }
      if x in b[1..] {
        var j :| 0 <= j < |b[1..]| && b[1..][j] == x;
        assert b[0] < b[j + 1] && x in b;
        var i :| 0 <= i < |a| && a[i] == x;
        assert i != 0 && a[1..][i - 1] == x;
      }
    }
  }

  /** A match at the front: both characters go, and the rest is handled two positions on. */
  lemma PairStep(s: string, p': seq<int>, k': seq<int>) returns (pairs: seq<int>, kept: seq<int>)
    requires PairAt(s, 0) && DeletesPairs(s[2..], Sanitise(s[2..]), p', k')
    ensures DeletesPairs(s, Sanitise(s), pairs, kept)
  {
    var t := s[2..];
    pairs, kept := [0] + Shift(p', 2), Shift(k', 2);
    EmbedsAfterDrop(Sanitise(t), s, k', 2);
    forall i | 0 <= i < |s|
      ensures i in kept <==> !InPair(pairs, i)
    {
      PairStepAt(s, p', k', i);
    }
    PairStepStarts(s, p', k');
    forall i | i in kept
      ensures !PairAt(s, i)
    {
      ShiftMembers(k', 2, i);
      assert !PairAt(t, i - 2);
    }
  }

  lemma PairStepAt(s: string, p': seq<int>, k': seq<int>, i: int)
    requires |s| >= 2 && 0 <= i < |s|
    requires forall x :: 0 <= x < |s| - 2 ==> (x in k' <==> !InPair(p', x))
    requires forall j :: 0 <= j < |k'| ==> 0 <= k'[j]
    ensures i in Shift(k', 2) <==> !InPair([0] + Shift(p', 2), i)
  {
    var shifted := Shift(p', 2);
    ShiftMembers(k', 2, i);
    if i >= 2 {
      ShiftMembers(p', 2, i);
      ShiftMembers(p', 2, i - 1);
      assert i in [0] + shifted <==> i - 2 in p';
      assert i - 1 in [0] + shifted <==> i - 3 in p';
      assert i - 2 in k' <==> !InPair(p', i - 2);
    } else {
      assert i - 2 !in k';
      assert 0 in [0] + shifted;
    }
  }

  lemma PairStepStarts(s: string, p': seq<int>, k': seq<int>)
    requires PairAt(s, 0) && DeletesPairs(s[2..], Sanitise(s[2..]), p', k')
    ensures forall j :: 0 <= j < |[0] + Shift(p', 2)| ==> PairAt(s, ([0] + Shift(p', 2))[j])
    ensures forall j, j' :: 0 <= j < j' < |[0] + Shift(p', 2)| ==> ([0] + Shift(p', 2))[j] + 2 <= ([0] + Shift(p', 2))[j']
  {
    var t, pairs := s[2..], [0] + Shift(p', 2);
    forall j | 0 <= j < |pairs|
      ensures PairAt(s, pairs[j])
    {
      if j > 0 {
        assert PairAt(t, p'[j - 1]);
      }
    }
    forall j, j' | 0 <= j < j' < |pairs|
      ensures pairs[j] + 2 <= pairs[j']
    {
      assert PairAt(t, p'[j' - 1]);
    }
  }

  /** No match at the front: the first character stays, and the rest is handled one position on. */
  lemma KeepStep(s: string, p': seq<int>, k': seq<int>) returns (pairs: seq<int>, kept: seq<int>)
    requires |s| > 0 && !PairAt(s, 0) && DeletesPairs(s[1..], Sanitise(s[1..]), p', k')
    ensures DeletesPairs(s, Sanitise(s), pairs, kept)
  {
    var t := s[1..];
    pairs, kept := Shift(p', 1), [0] + Shift(k', 1);
    EmbedsCons(Sanitise(t), s, k');
    forall j | 0 <= j < |p'|
      ensures 0 <= p'[j]
    {
      assert PairAt(t, p'[j]);
    }
    forall i | 0 <= i < |s|
      ensures i in kept <==> !InPair(pairs, i)
    {
      KeepStepAt(s, p', k', i);
    }
    forall j | 0 <= j < |pairs|
      ensures PairAt(s, pairs[j])
    {
      assert PairAt(t, p'[j]);
    }
    forall i | i in kept
      ensures !PairAt(s, i)
    {
      ShiftMembers(k', 1, i);
      if i != 0 {
        assert !PairAt(t, i - 1);
      }
    }
  }

  /** The key is left alone exactly when no non-word character is followed by whitespace. */
  lemma {:induction false} SanitiseIdentity(s: string)
    ensures Sanitise(s) == s <==> forall i :: 0 <= i < |s| ==> !PairAt(s, i)
    decreases |s|
  {
    if PairAt(s, 0) {
      assert |Sanitise(s)| < |s|;
    } else if |s| > 0 {
      var t := s[1..];
      SanitiseIdentity(t);
      forall i | 0 <= i < |s| - 1
        ensures PairAt(s, i + 1) <==> PairAt(t, i)
      {
      }
      assert (forall i :: 0 <= i < |s| ==> !PairAt(s, i)) <==> (forall i :: 0 <= i < |t| ==> !PairAt(t, i)) by {
        if forall i :: 0 <= i < |t| ==> !PairAt(t, i) {
          forall i | 0 <= i < |s|
            ensures !PairAt(s, i)
          {
            if i > 0 {
              assert !PairAt(t, i - 1);
            }
          }
        }
      }
      assert s == [s[0]] + t;
      assert Sanitise(s) == [s[0]] + Sanitise(t);
      assert Sanitise(s) == s <==> Sanitise(t) == t by {
        if Sanitise(s) == s {
          assert Sanitise(t) == Sanitise(s)[1..];
        }
      }
    }
  }

  /** A key with no whitespace in it is passed through unchanged. */
  lemma SanitiseKeepsSpacelessKeys(s: string)
    requires HasNoSpace(s)
    ensures Sanitise(s) == s
  {
    SanitiseIdentity(s);
  }

  /** A product name whose only space follows a letter, such as "Ball 2024", is kept. */
  lemma SanitiseKeepsProductName(s: string)
    requires s == "Ball 2024"
    ensures Sanitise(s) == s
  {
    forall i | 0 <= i < |s|
      ensures !PairAt(s, i)
    {
    }
    SanitiseIdentity(s);
  }

  /** The text `strptime` is given: the parameter if non-empty, otherwise the default. */
  function OrDefault(arg: Option<string>, default: string): string {
    if Truthy(arg) then arg.value else default
  }

  /** `product_name or product_names`. */
  function ProductText(q: Query): string {
    var name := Arg(q, "product_name");
    if Truthy(name) then name.value else OrDefault(Arg(q, "product_names"), "")
  }

  /** The query has a non-empty auth cookie and organisation id. */
  predicate HasCredentials(q: Query) {
    Truthy(Arg(q, "auth_cookie")) && Truthy(Arg(q, "organisation_id"))
  }

  /** Exactly one of the two product parameters is non-empty. */
  predicate OneProduct(q: Query) {
    Truthy(Arg(q, "product_name")) != Truthy(Arg(q, "product_names"))
  }

  /** The checks of the endpoint, in order, with the 400 message of the first that fails. */
  function ValidateRequest(q: Query): (r: Result<ReportRequest, string>)
    ensures r == Err(MissingCredentials) <==> !HasCredentials(q)
    ensures r == Err(MissingProduct) <==>
      HasCredentials(q) && !Truthy(Arg(q, "product_name")) && !Truthy(Arg(q, "product_names"))
    ensures r == Err(BothProducts) <==>
      HasCredentials(q) && Truthy(Arg(q, "product_name")) && Truthy(Arg(q, "product_names"))
    ensures r == Err(BadDate) <==>
      HasCredentials(q) && OneProduct(q)
      && (ParseIsoDate(OrDefault(Arg(q, "start_date"), DefaultStart)).None?
          || ParseIsoDate(OrDefault(Arg(q, "end_date"), DefaultEnd)).None?)
    ensures r.Ok? <==>
      HasCredentials(q) && OneProduct(q)
      && ParseIsoDate(OrDefault(Arg(q, "start_date"), DefaultStart)).Some?
      && ParseIsoDate(OrDefault(Arg(q, "end_date"), DefaultEnd)).Some?
    ensures r.Ok? ==>
      && r.value.auth == q["auth_cookie"] && r.value.org == q["organisation_id"]
      && r.value.key == Sanitise(ProductText(q))
      && ValidDateTime(r.value.from) && ValidDateTime(r.value.to)
      && r.value.from == ParseIsoDate(OrDefault(Arg(q, "start_date"), DefaultStart)).value
      && r.value.to == ParseIsoDate(OrDefault(Arg(q, "end_date"), DefaultEnd)).value
  {
    var name, names := Arg(q, "product_name"), Arg(q, "product_names");
    if !HasCredentials(q) then Err(MissingCredentials)
    else if !Truthy(name) && !Truthy(names) then Err(MissingProduct)
    else if Truthy(name) && Truthy(names) then Err(BothProducts)
    else
      match (ParseIsoDate(OrDefault(Arg(q, "start_date"), DefaultStart)), ParseIsoDate(OrDefault(Arg(q, "end_date"), DefaultEnd)))
      case (Some(from), Some(to)) =>
        Ok(ReportRequest(q["auth_cookie"], q["organisation_id"], Sanitise(ProductText(q)), from, to))
      case _ => Err(BadDate)
  }

  /** The digit strings of the two defaults, read as numbers. */
  lemma DefaultDigits()
    ensures DigitsValue("2000") == 2000 && DigitsValue("2100") == 2100 && DigitsValue("01") == 1
  {
    assert "2000"[..3] == "200" && "200"[..2] == "20" && "20"[..1] == "2" && "2"[..0] == "";
    assert "2100"[..3] == "210" && "210"[..2] == "21" && "21"[..1] == "2";
    assert "01"[..1] == "0" && "0"[..0] == "";
  }

  /** The two defaults are well-formed dates: 1 January 2000 and 1 January 2100, at midnight. */
  lemma DefaultDates()
    ensures ParseIsoDate(DefaultStart) == Some(DateTime(2000, 1, 1, 0, 0))
    ensures ParseIsoDate(DefaultEnd) == Some(DateTime(2100, 1, 1, 0, 0))
  {
    var s, e := DefaultStart, DefaultEnd;
    DefaultDigits();
    assert s == "2000" + ['-'] + "01" + ['-'] + "01";
    assert e == "2100" + ['-'] + "01" + ['-'] + "01";
    ThreeFields("2000", '-', "01", '-', "01");
    ThreeFields("2100", '-', "01", '-', "01");
    ParseIsoDateFields(s, DateTime(2000, 1, 1, 0, 0));
    ParseIsoDateFields(e, DateTime(2100, 1, 1, 0, 0));
  }

  /** The filter key is the one product parameter given, sanitised. */
  lemma ValidatedKey(q: Query)
    requires ValidateRequest(q).Ok?
    ensures Truthy(Arg(q, "product_name")) ==> ValidateRequest(q).value.key == Sanitise(q["product_name"])
    ensures !Truthy(Arg(q, "product_name")) ==> "product_names" in q && ValidateRequest(q).value.key == Sanitise(q["product_names"])
  {
  }

  /** One date parameter: absent or empty means the default, otherwise the text is the date's rendering. */
  lemma DateParameter(arg: Option<string>, default: string, d: DateTime)
    requires ParseIsoDate(default) == Some(d)
    requires ParseIsoDate(OrDefault(arg, default)).Some?
    ensures !Truthy(arg) ==> ParseIsoDate(OrDefault(arg, default)).value == d
    ensures Truthy(arg) ==> FormatIsoDate(ParseIsoDate(OrDefault(arg, default)).value) == arg.value
  {
    FormatParseIsoDate(OrDefault(arg, default));
  }

  /**
   * A missing or empty date stands for its default, and a given date is the
   * one written, read back exactly; both are at midnight.
   */
  lemma ValidatedDates(q: Query)
    requires ValidateRequest(q).Ok?
    ensures var req := ValidateRequest(q).value;
      && (!Truthy(Arg(q, "start_date")) ==> req.from == DateTime(2000, 1, 1, 0, 0))
      && (!Truthy(Arg(q, "end_date")) ==> req.to == DateTime(2100, 1, 1, 0, 0))
      && (Truthy(Arg(q, "start_date")) ==> FormatIsoDate(req.from) == q["start_date"])
      && (Truthy(Arg(q, "end_date")) ==> FormatIsoDate(req.to) == q["end_date"])
      && req.from.hour == 0 && req.from.minute == 0 && req.to.hour == 0 && req.to.minute == 0
  {
    ValidatedStart(q);
    ValidatedEnd(q);
  }

  /** The start of the range: the default or the date written. */
  lemma ValidatedStart(q: Query)
    requires ValidateRequest(q).Ok?
    ensures var req := ValidateRequest(q).value;
      && (!Truthy(Arg(q, "start_date")) ==> req.from == DateTime(2000, 1, 1, 0, 0))
      && (Truthy(Arg(q, "start_date")) ==> FormatIsoDate(req.from) == q["start_date"])
  {
    DefaultDates();
    DateParameter(Arg(q, "start_date"), DefaultStart, DateTime(2000, 1, 1, 0, 0));
  }

  /** The end of the range: the default or the date written. */
  lemma ValidatedEnd(q: Query)
    requires ValidateRequest(q).Ok?
    ensures var req := ValidateRequest(q).value;
      && (!Truthy(Arg(q, "end_date")) ==> req.to == DateTime(2100, 1, 1, 0, 0))
      && (Truthy(Arg(q, "end_date")) ==> FormatIsoDate(req.to) == q["end_date"])
  {
    DefaultDates();
    DateParameter(Arg(q, "end_date"), DefaultEnd, DateTime(2100, 1, 1, 0, 0));
  }

  /**
   * The endpoint as written: once validation passes, the report workflow is
   * called without its `report_type` argument, so the call itself fails and
   * every valid request is answered with a 500 carrying Python's TypeError
   * message.
   */
  function FetchCustomisationReport(q: Query): (reply: Reply)
    ensures reply.body.JsonError?
    ensures reply.status == 400 <==> ValidateRequest(q).Err?
    ensures reply.status == 400 ==> reply.body.message == ValidateRequest(q).error
    ensures reply.status != 400 ==> reply == Reply(500, JsonError(MissingReportType))
  {
    match ValidateRequest(q)
    case Err(m) => Reply(400, JsonError(m))
    case Ok(_) => Reply(500, JsonError(MissingReportType))
  }

  /**
   * The endpoint as intended, with the report type passed through: a failed
   * validation is a 400, a failure of the workflow a 500 with the
   * exception's message, and otherwise the filtered report is sent.
   */
  function FetchCustomisationReportWith(q: Query, reportType: string, portal: Portal): (reply: Reply)
    ensures reply.status == 400 <==> ValidateRequest(q).Err?
    ensures reply.status == 400 ==> reply.body == JsonError(ValidateRequest(q).error)
    ensures reply.status == 200 || reply.status == 400 || reply.status == 500
    ensures reply.status == 200 <==> reply.body.Attachment?
    ensures ValidateRequest(q).Ok? ==>
      var req := ValidateRequest(q).value;
      var outcome := GetProductCustomisations(portal, req.key, req.auth, req.org, req.from, req.to, reportType);
      && (outcome.Err? ==> reply == Reply(500, JsonError(Message(outcome.error))))
      && (outcome.Ok? ==> reply == Reply(200, Attachment(ReportFileName, outcome.value.lines)))
  {
    match ValidateRequest(q)
    case Err(m) => Reply(400, JsonError(m))
    case Ok(req) => ReplyTo(GetProductCustomisations(portal, req.key, req.auth, req.org, req.from, req.to, reportType))
  }

  /**
   * The reply to the workflow's outcome: its exception's message with a 500,
   * a file without a name as a failed generation, otherwise the file.
   */
  function ReplyTo(outcome: Result<Artifact, ReportError>): (reply: Reply)
    ensures outcome.Err? ==> reply == Reply(500, JsonError(Message(outcome.error)))
    ensures outcome.Ok? && outcome.value.path == "" ==> reply == Reply(500, JsonError(GenerationFailed))
    ensures outcome.Ok? && outcome.value.path != "" ==> reply == Reply(200, Attachment(outcome.value.path, outcome.value.lines))
    ensures reply.status == 200 || reply.status == 500
    ensures reply.status == 200 <==> reply.body.Attachment?
  {
    match outcome
    case Err(e) => Reply(500, JsonError(Message(e)))
    case Ok(file) =>
      if file.path == "" then Reply(500, JsonError(GenerationFailed))
      else Reply(200, Attachment(file.path, file.lines))
  }

  /**
   * Every valid request served as written gets the TypeError, while the
   * intended endpoint, for the same request, may deliver the report: the
   * two differ on every request whose workflow succeeds.
   */
  lemma AsWrittenNeverDelivers(q: Query, reportType: string, portal: Portal)
    ensures FetchCustomisationReportWith(q, reportType, portal).status == 200 ==>
      FetchCustomisationReport(q) == Reply(500, JsonError(MissingReportType))
  {
  }

  /**
   * A delivered attachment is the four header lines and the rows whose
   * product field contains the sanitised key, from a CSV fetched with the
   * caller's auth cookie.
   */
  lemma DeliveredAttachment(q: Query, reportType: string, portal: Portal) returns (url: string, jar: map<string, string>)
    ensures FetchCustomisationReportWith(q, reportType, portal).status == 200 ==>
      && "auth_cookie" in q && AuthCookie in jar && jar[AuthCookie] == q["auth_cookie"]
      && FetchCustomisationReportWith(q, reportType, portal).body
         == Attachment(ReportFileName, FilterCsv(portal.download(url, jar).lines, Sanitise(ProductText(q))))
  {
    url, jar := "", map[];
    if FetchCustomisationReportWith(q, reportType, portal).status == 200 {
      var req := ValidateRequest(q).value;
      url, jar := DeliveredReport(portal, req.key, req.auth, req.org, req.from, req.to, reportType);
    }
  }
}

=== FILE: common.dfy ===
/**
 * Shared vocabulary: a failure-compatible Result, Python's optional values,
 * and the handful of Python string operations the report fetcher relies on
 * (`in`, `str.strip`, `str.replace`, the `\s` and `\w` character classes).
 */
module Common {

  datatype Option<+T> = None | Some(value: T)

  /** Ok carries a value; Err carries the exception the Python code would raise. */
  datatype Result<+T, +E> = Ok(value: T) | Err(error: E) {
    predicate IsFailure() {
      Err?
    }

    function PropagateFailure<U>(): Result<U, E>
      requires Err?
    {
      Err(error)
    }

    function Extract(): T
      requires Ok?
    {
      value
    }
  }

  /** Python truthiness of an `Optional[str]`: present and non-empty. */
  predicate Truthy(o: Option<string>) {
    o.Some? && o.value != ""
  }

  /** Python's whitespace (`str.isspace`, and `\s` in a str pattern). */
  predicate IsSpace(c: char) {
    || ('\t' <= c <= '\r')
    || ('\U{1C}' <= c <= '\U{1F}')
    || c == ' '
    || c == '\U{85}'
    || c == '\U{A0}'
    || c == '\U{1680}'
    || ('\U{2000}' <= c <= '\U{200A}')
    || c == '\U{2028}'
    || c == '\U{2029}'
    || c == '\U{202F}'
    || c == '\U{205F}'
    || c == '\U{3000}'
  }

  /** The word characters of `\w`, restricted to ASCII. */
  predicate IsWordChar(c: char) {
    ('a' <= c <= 'z') || ('A' <= c <= 'Z') || ('0' <= c <= '9') || c == '_'
  }

  predicate HasNoSpace(s: string) {
    forall i :: 0 <= i < |s| ==> !IsSpace(s[i])
  }

  predicate StartsWith(s: string, p: string) {
    |p| <= |s| && s[..|p|] == p
  }

  /** `p` occurs in `s` starting at index `i`. */
  predicate OccursAt(s: string, p: string, i: int) {
    0 <= i && i + |p| <= |s| && s[i..i + |p|] == p
  }

  /** Python's substring test `p in s`, as a left-to-right scan. */
  predicate Contains(s: string, p: string)
    decreases |s|
  {
    StartsWith(s, p) || (|s| > 0 && Contains(s[1..], p))
  }

  /** The scan agrees with the declarative reading: some position holds `p`. */
  lemma {:induction false} ContainsIffOccurs(s: string, p: string)
    ensures Contains(s, p) <==> exists i :: OccursAt(s, p, i)
    decreases |s|
  {
    if StartsWith(s, p) {
      assert OccursAt(s, p, 0);
    } else if |s| == 0 {
      forall i | OccursAt(s, p, i)
        ensures false
      {
      }
    } else {
      ContainsIffOccurs(s[1..], p);
      if Contains(s[1..], p) {
        var i :| OccursAt(s[1..], p, i);
        OccursShift(s, p, i + 1);
      } else {
        forall i | 0 < i
          ensures !OccursAt(s, p, i)
        {
          OccursShift(s, p, i);
        }
      }
    }
  }

  lemma OccursShift(s: string, p: string, i: int)
    requires 0 < i && 0 < |s|
    ensures OccursAt(s, p, i) <==> OccursAt(s[1..], p, i - 1)
  {
    if i + |p| <= |s| {
      assert s[1..][i - 1..i - 1 + |p|] == s[i..i + |p|];
    }
  }

  /** An occurrence of `a + b` is an occurrence of `a` followed by one of `b`. */
  lemma OccursConcat(s: string, a: string, b: string, p: int)
    ensures OccursAt(s, a + b, p) <==> OccursAt(s, a, p) && OccursAt(s, b, p + |a|)
  {
    if OccursAt(s, a + b, p) {
      assert s[p..p + |a|] == (a + b)[..|a|];
      assert s[p + |a|..p + |a| + |b|] == (a + b)[|a|..];
    }
    if OccursAt(s, a, p) && OccursAt(s, b, p + |a|) {
      assert s[p..p + |a| + |b|] == s[p..p + |a|] + s[p + |a|..p + |a| + |b|];
    }
  }

  /** Left half of `str.strip()`: the leading whitespace is dropped. */
  function TrimLeft(s: string): string
    decreases |s|
  {
    if |s| > 0 && IsSpace(s[0]) then TrimLeft(s[1..]) else s
  }

  /** Right half of `str.strip()`: the trailing whitespace is dropped. */
  function TrimRight(s: string): string
    decreases |s|
  {
    if |s| > 0 && IsSpace(s[|s| - 1]) then TrimRight(s[..|s| - 1]) else s
  }

  /** Python's `str.strip()` with no argument. */
  function Strip(s: string): string {
    TrimRight(TrimLeft(s))
  }

  lemma {:induction false} TrimLeftSpec(s: string)
    ensures |TrimLeft(s)| <= |s| && TrimLeft(s) == s[|s| - |TrimLeft(s)|..]
    ensures forall i :: 0 <= i < |s| - |TrimLeft(s)| ==> IsSpace(s[i])
    ensures |TrimLeft(s)| == 0 || !IsSpace(TrimLeft(s)[0])
    decreases |s|
  {
    if |s| > 0 && IsSpace(s[0]) {
      TrimLeftSpec(s[1..]);
    }
  }

  lemma {:induction false} TrimRightSpec(s: string)
    ensures |TrimRight(s)| <= |s| && TrimRight(s) == s[..|TrimRight(s)|]
    ensures forall i :: |TrimRight(s)| <= i < |s| ==> IsSpace(s[i])
    ensures |TrimRight(s)| == 0 || !IsSpace(TrimRight(s)[|TrimRight(s)| - 1])
    decreases |s|
  {
    if |s| > 0 && IsSpace(s[|s| - 1]) {
      TrimRightSpec(s[..|s| - 1]);
    }
  }

  /**
   * Stripping removes whitespace from both ends, only from the ends, and
   * leaves no whitespace at either end.
   */
  lemma StripSpec(s: string)
    ensures StrippedAt(s, Strip(s), |s| - |TrimLeft(s)|)
    ensures |Strip(s)| == 0 || (!IsSpace(Strip(s)[0]) && !IsSpace(Strip(s)[|Strip(s)| - 1]))
  {
    TrimLeftSpec(s);
    TrimRightSpec(TrimLeft(s));
  }

  /** `r` is `s` without `i` leading and some trailing whitespace characters. */
  predicate StrippedAt(s: string, r: string, i: int) {
    && 0 <= i && i + |r| <= |s|
    && r == s[i..i + |r|]
    && (forall k :: 0 <= k < i ==> IsSpace(s[k]))
    && (forall k :: i + |r| <= k < |s| ==> IsSpace(s[k]))
  }

  /**
   * Python's `s.replace(pat, rep)`: occurrences are found left to right and
   * do not overlap.
   */
  function ReplaceAll(s: string, pat: string, rep: string): (r: string)
    requires |pat| > 0
    ensures |rep| <= |pat| ==> |r| <= |s|
    decreases |s|
  {
    if |s| == 0 then s
    else if StartsWith(s, pat) then rep + ReplaceAll(s[|pat|..], pat, rep)
    else [s[0]] + ReplaceAll(s[1..], pat, rep)
  }

  /** Replacing a pattern that does not occur changes nothing. */
  lemma {:induction false} ReplaceAllAbsent(s: string, pat: string, rep: string)
    requires |pat| > 0 && !Contains(s, pat)
    ensures ReplaceAll(s, pat, rep) == s
    decreases |s|
  {
    if |s| > 0 {
      ReplaceAllAbsent(s[1..], pat, rep);
      assert s == [s[0]] + s[1..];
    }
  }

  /** A string that does not start with the pattern keeps its first character. */
  lemma ReplaceAllKeepsHead(c: char, t: string, pat: string, rep: string)
    requires |pat| > 0 && (pat[0] != c || !StartsWith([c] + t, pat))
    ensures ReplaceAll([c] + t, pat, rep) == [c] + ReplaceAll(t, pat, rep)
  {
    assert ([c] + t)[1..] == t;
  }

  /** A string that starts with the pattern has it replaced. */
  lemma ReplaceAllReplacesHead(t: string, pat: string, rep: string)
    requires |pat| > 0
    ensures ReplaceAll(pat + t, pat, rep) == rep + ReplaceAll(t, pat, rep)
  {
    assert (pat + t)[..|pat|] == pat;
    assert (pat + t)[|pat|..] == t;
  }

  /** A prefix in which no occurrence of the pattern starts passes through unchanged. */
  lemma {:induction false} ReplaceAllSkips(u: string, w: string, pat: string, rep: string)
    requires |pat| > 0
    requires forall i :: 0 <= i < |u| ==> !OccursAt(u + w, pat, i)
    ensures ReplaceAll(u + w, pat, rep) == u + ReplaceAll(w, pat, rep)
    decreases |u|
  {
    if |u| == 0 {
      assert u + w == w;
    } else {
      var s := u + w;
      assert !OccursAt(s, pat, 0);
      assert s[1..] == u[1..] + w;
      forall i | 0 <= i < |u[1..]|
        ensures !OccursAt(u[1..] + w, pat, i)
      {
        OccursShift(s, pat, i + 1);
      }
      ReplaceAllSkips(u[1..], w, pat, rep);
      assert u == [u[0]] + u[1..];
    }
  }

  /**
   * The first occurrence of the pattern is replaced, the text before it is
   * kept, and the scan resumes after it: `replace` is left to right and
   * non-overlapping.
   */
  lemma ReplaceAllFirstOccurrence(u: string, v: string, pat: string, rep: string)
    requires |pat| > 0
    requires forall i :: 0 <= i < |u| ==> !OccursAt(u + pat + v, pat, i)
    ensures ReplaceAll(u + pat + v, pat, rep) == u + rep + ReplaceAll(v, pat, rep)
  {
    assert u + pat + v == u + (pat + v);
    ReplaceAllSkips(u, pat + v, pat, rep);
    ReplaceAllReplacesHead(v, pat, rep);
  }

  /** No occurrence starts in a prefix that lacks the pattern's first character. */
  lemma NoOccurrenceWithout(u: string, w: string, pat: string)
    requires |pat| > 0
    requires forall i :: 0 <= i < |u| ==> u[i] != pat[0]
    ensures forall i :: 0 <= i < |u| ==> !OccursAt(u + w, pat, i)
  {
    forall i | 0 <= i < |u|
      ensures !OccursAt(u + w, pat, i)
    {
      if i + |pat| <= |u + w| {
        assert (u + w)[i..i + |pat|][0] == u[i];
      }
    }
  }

  /** `idx` lists, in increasing order, the input positions the output lines came from. */
  predicate Embeds<T(==)>(out: seq<T>, input: seq<T>, idx: seq<int>) {
    && |idx| == |out|
    && (forall j :: 0 <= j < |idx| ==> 0 <= idx[j] < |input| && out[j] == input[idx[j]])
    && (forall j, j' :: 0 <= j < j' < |idx| ==> idx[j] < idx[j'])
  }

  /** Every position moved by `d`. */
  function Shift(xs: seq<int>, d: int): (r: seq<int>)
    ensures |r| == |xs| && forall j :: 0 <= j < |xs| ==> r[j] == xs[j] + d
    decreases |xs|
  {
    if |xs| == 0 then [] else [xs[0] + d] + Shift(xs[1..], d)
  }

  /** The positions `0 .. n-1`. */
  function Range(n: nat): (r: seq<int>)
    ensures |r| == n && forall j :: 0 <= j < n ==> r[j] == j
  {
    if n == 0 then [] else Range(n - 1) + [n - 1]
  }

  lemma ShiftMembers(xs: seq<int>, d: int, i: int)
    ensures i in Shift(xs, d) <==> i - d in xs
  {
    var r := Shift(xs, d);
    if i - d in xs {
      var j :| 0 <= j < |xs| && xs[j] == i - d;
      assert r[j] == i;
    }
    if i in r {
      var j :| 0 <= j < |r| && r[j] == i;
      assert xs[j] == i - d;
    }
  }

  /** An embedding into the tail of the input is an embedding into the input, one further on. */
  lemma EmbedsInTail<T>(out: seq<T>, input: seq<T>, idx: seq<int>)
    requires |input| > 0 && Embeds(out, input[1..], idx)
    ensures Embeds(out, input, Shift(idx, 1))
    ensures forall j :: 0 <= j < |idx| ==> Shift(idx, 1)[j] > 0
  {
    EmbedsAfterDrop(out, input, idx, 1);
  }

  /** Keeping the input's first element in front of an embedding of the rest. */
  lemma EmbedsCons<T>(out: seq<T>, input: seq<T>, idx: seq<int>)
    requires |input| > 0 && Embeds(out, input[1..], idx)
    ensures Embeds([input[0]] + out, input, [0] + Shift(idx, 1))
  {
    EmbedsInTail(out, input, idx);
  }

  /** An embedding into the input with its first `d` elements dropped, moved `d` further on. */
  lemma EmbedsAfterDrop<T>(out: seq<T>, input: seq<T>, idx: seq<int>, d: nat)
    requires d <= |input| && Embeds(out, input[d..], idx)
    ensures Embeds(out, input, Shift(idx, d))
    ensures forall j :: 0 <= j < |idx| ==> Shift(idx, d)[j] >= d
  {
  }

  /** `a` can be obtained from `b` by deleting elements. */
  predicate IsSubsequence<T(==)>(a: seq<T>, b: seq<T>)
    decreases |b|
  {
    |a| == 0 || (|b| > 0 && ((a[0] == b[0] && IsSubsequence(a[1..], b[1..])) || IsSubsequence(a, b[1..])))
  }

  lemma {:induction false} SubsequenceReflexive<T>(a: seq<T>)
    ensures IsSubsequence(a, a)
    decreases |a|
  {
    if |a| > 0 {
      SubsequenceReflexive(a[1..]);
    }
  }

  /** A common prefix keeps a subsequence a subsequence. */
  lemma {:induction false} SubsequencePrefix<T>(p: seq<T>, a: seq<T>, b: seq<T>)
    requires IsSubsequence(a, b)
    ensures IsSubsequence(p + a, p + b)
    decreases |p|
  {
    if |p| > 0 {
      var x, y := p + a, p + b;
      SubsequencePrefix(p[1..], a, b);
      assert x[1..] == p[1..] + a;
      assert y[1..] == p[1..] + b;
      assert x[0] == y[0];
    } else {
      assert p + a == a && p + b == b;
    }
  }
}

=== FILE: context.dfy ===
/**
 * Session context harvesting (`get_msl_context` in css-reports/report.py):
 * every `<input>` of the sales-reports page with a non-empty name and value
 * (hidden fields and submit buttons alike), the cookies the server
 * set, and the check that the page is not the portal's login page.
 */
module Context {

  import opened Common
  import opened Failures

  /** The portal's authentication cookie. */
  const AuthCookie: string := ".ASPXAUTH"

  /** An `<input>` element: each attribute may be missing. */
  datatype Input = Input(name: Option<string>, value: Option<string>)

  /**
   * The page's `<title>`: missing altogether, present without a single text
   * child (so its `.string` is `None`), or present with text.
   */
  datatype Title = NoTitle | TitleWithoutText | Title(text: string)

  /** The parsed page: its inputs in document order, and its title. */
  datatype Page = Page(inputs: seq<Input>, title: Title)

  /** What the authenticated GET returns: the page and the cookies set by the server. */
  datatype PageResponse = PageResponse(page: Page, cookies: map<string, string>)

  /** What the next request needs: the form fields and the cookie jar. */
  datatype SessionContext = SessionContext(fields: map<string, string>, cookies: map<string, string>)

  /** The input carries a non-empty name `k` and a non-empty value. */
  predicate Harvestable(inp: Input, k: string) {
    inp.name == Some(k) && k != "" && Truthy(inp.value)
  }

  /**
   * The form fields, visiting inputs in document order; an input only counts
   * when both its name and its value are non-empty, and a later input
   * overwrites an earlier one of the same name.
   */
  function Harvest(inputs: seq<Input>): map<string, string>
    decreases |inputs|
  {
    if |inputs| == 0 then map[]
    else
      var last := inputs[|inputs| - 1];
      var rest := Harvest(inputs[..|inputs| - 1]);
      if Truthy(last.name) && Truthy(last.value) then rest[last.name.value := last.value.value] else rest
  }

  /** A name is harvested exactly when some input with that name and a value exists. */
  lemma {:induction false} HarvestDomain(inputs: seq<Input>, k: string)
    ensures k in Harvest(inputs) <==> exists i :: 0 <= i < |inputs| && Harvestable(inputs[i], k)
    decreases |inputs|
  {
    if |inputs| > 0 {
      var init := inputs[..|inputs| - 1];
      HarvestDomain(init, k);
      assert forall i :: 0 <= i < |init| ==> init[i] == inputs[i];
      if k in Harvest(inputs) && !Harvestable(inputs[|inputs| - 1], k) {
        assert k in Harvest(init);
      }
    }
  }

  /** The harvested value of a name is the value of the last input carrying it. */
  lemma {:induction false} HarvestLastWins(inputs: seq<Input>, k: string, i: int)
    requires LastHarvestable(inputs, k, i)
    ensures k in Harvest(inputs) && Harvest(inputs)[k] == inputs[i].value.value
    decreases |inputs|
  {
    var n := |inputs| - 1;
    if i < n {
      var init := inputs[..n];
      assert LastHarvestable(init, k, i);
      HarvestLastWins(init, k, i);
      assert !Harvestable(inputs[n], k);
    }
  }

  /** Input `i` is the last harvestable input named `k`. */
  predicate LastHarvestable(inputs: seq<Input>, k: string, i: int) {
    && 0 <= i < |inputs|
    && Harvestable(inputs[i], k)
    && forall j :: i < j < |inputs| ==> !Harvestable(inputs[j], k)
  }

  /**
   * The cookie jar: every cookie the server set, then the authentication
   * cookie forced to the caller's token.
   */
  function StampCookies(server: map<string, string>, auth: string): (jar: map<string, string>)
    ensures AuthCookie in jar && jar[AuthCookie] == auth
    ensures forall k :: k != AuthCookie ==> (k in jar <==> k in server)
    ensures forall k :: k != AuthCookie && k in server ==> jar[k] == server[k]
  {
    server[AuthCookie := auth]
  }

  /** The exception the title check raises, if any. */
  function TitleCheck(t: Title): Option<ReportError> {
    match t
    case NoTitle => Some(TitleMissing)
    case TitleWithoutText => Some(TitleNotText)
    case Title(text) => if Contains(text, "Login") then Some(LoginRedirect) else None
  }

  /**
   * `get_msl_context` once the GET has answered: the fields and cookies,
   * unless the page is the login page (or has no usable title).
   */
  function BuildContext(resp: PageResponse, auth: string): (r: Result<SessionContext, ReportError>)
    ensures r.Ok? <==> resp.page.title.Title? && !Contains(resp.page.title.text, "Login")
    ensures resp.page.title.Title? && Contains(resp.page.title.text, "Login") ==> r == Err(LoginRedirect)
    ensures r.Ok? ==> r.value.fields == Harvest(resp.page.inputs)
    ensures r.Ok? ==> AuthCookie in r.value.cookies && r.value.cookies[AuthCookie] == auth
    ensures r.Ok? ==> forall k :: k != AuthCookie && k in resp.cookies ==> k in r.value.cookies && r.value.cookies[k] == resp.cookies[k]
    ensures r.Ok? ==> forall k :: k in r.value.cookies ==> k == AuthCookie || k in resp.cookies
    ensures resp.page.title.NoTitle? ==> r == Err(TitleMissing)
    ensures resp.page.title.TitleWithoutText? ==> r == Err(TitleNotText)
  {
    match TitleCheck(resp.page.title)
    case Some(e) => Err(e)
    case None => Ok(SessionContext(Harvest(resp.page.inputs), StampCookies(resp.cookies, auth)))
  }

  /** The portal's login page, "Login - Guild of Students", is refused. */
  lemma LoginTitleRefused(inputs: seq<Input>, cookies: map<string, string>, auth: string)
    ensures BuildContext(PageResponse(Page(inputs, Title("Login - Guild of Students")), cookies), auth) == Err(LoginRedirect)
  {
    assert StartsWith("Login - Guild of Students", "Login");
  }
}

=== FILE: csv_filter.dfy ===
/**
 * The CSV download filter (end of `get_product_customisations` in
 * css-reports/report.py): the first four lines are written as they come, and
 * each later line only when its first comma-separated field, stripped,
 * contains the product key.
 */
module CsvFilter {

  import opened Common

  /** The number of leading lines copied unconditionally (`range(4)`). */
  const HeaderLines: nat := 4

  /** `line.split(",")[0]`: everything before the first comma. */
  function FirstField(line: string): (f: string)
    ensures |f| <= |line| && f == line[..|f|]
    ensures forall k :: 0 <= k < |f| ==> f[k] != ','
    ensures |f| == |line| || line[|f|] == ','
    decreases |line|
  {
    if |line| == 0 || line[0] == ',' then ""
    else [line[0]] + FirstField(line[1..])
  }

  /** `product_id_or_name in line_data`, with `line_data` the stripped first field. */
  predicate KeepRow(line: string, key: string) {
    Contains(Strip(FirstField(line)), key)
  }

  /** The data lines that survive, in their original order. */
  function SelectRows(rows: seq<string>, key: string): (kept: seq<string>)
    ensures |kept| <= |rows|
    ensures forall j :: 0 <= j < |kept| ==> KeepRow(kept[j], key)
    ensures IsSubsequence(kept, rows)
    decreases |rows|
  {
    if |rows| == 0 then []
    else if KeepRow(rows[0], key) then [rows[0]] + SelectRows(rows[1..], key)
    else SelectRows(rows[1..], key)
  }

  /** The whole file written for `key`. */
  function FilterCsv(lines: seq<string>, key: string): seq<string> {
    var h := if |lines| < HeaderLines then |lines| else HeaderLines;
    lines[..h] + SelectRows(lines[h..], key)
  }

  /** Selection keeps exactly the matching rows, each once, in order. */
  lemma {:induction false} SelectRowsExactly(rows: seq<string>, key: string) returns (idx: seq<int>)
    ensures Embeds(SelectRows(rows, key), rows, idx)
    ensures forall i :: 0 <= i < |rows| ==> (i in idx <==> KeepRow(rows[i], key))
    decreases |rows|
  {
    if |rows| == 0 {
      idx := [];
    } else {
      var tail := SelectRowsExactly(rows[1..], key);
      var rest := SelectRows(rows[1..], key);
      forall i | 0 <= i < |rows|
        ensures i in Shift(tail, 1) <==> 0 < i && KeepRow(rows[i], key)
      {
        ShiftMembers(tail, 1, i);
        if 0 < i {
          assert rows[1..][i - 1] == rows[i];
        }
      }
      if KeepRow(rows[0], key) {
        EmbedsCons(rest, rows, tail);
        idx := [0] + Shift(tail, 1);
      } else {
        EmbedsInTail(rest, rows, tail);
        idx := Shift(tail, 1);
      }
    }
  }

  /** A verbatim prefix followed by an embedding of the remainder. */
  lemma EmbedsAfterPrefix<T>(input: seq<T>, h: nat, out: seq<T>, idx: seq<int>)
    requires h <= |input| && Embeds(out, input[h..], idx)
    ensures Embeds(input[..h] + out, input, Range(h) + Shift(idx, h))
  {
    var all, pos := input[..h] + out, Range(h) + Shift(idx, h);
    forall j | 0 <= j < |pos|
      ensures 0 <= pos[j] < |input| && all[j] == input[pos[j]]
    {
      if j >= h {
        assert pos[j] == idx[j - h] + h && all[j] == out[j - h];
      }
    }
  }

  /**
   * The filter law: the output is the input with some lines deleted; a line
   * is kept exactly when it is one of the first four or its stripped first
   * field contains the key.
   */
  lemma FilterLaw(lines: seq<string>, key: string) returns (idx: seq<int>)
    ensures Embeds(FilterCsv(lines, key), lines, idx)
    ensures forall i :: 0 <= i < |lines| ==> (i in idx <==> i < HeaderLines || KeepRow(lines[i], key))
  {
    var h := if |lines| < HeaderLines then |lines| else HeaderLines;
    var rows := lines[h..];
    var sel := SelectRowsExactly(rows, key);
    EmbedsAfterPrefix(lines, h, SelectRows(rows, key), sel);
    idx := Range(h) + Shift(sel, h);
    forall i | 0 <= i < |lines|
      ensures i in idx <==> i < HeaderLines || KeepRow(lines[i], key)
    {
      KeptPosition(lines, key, h, sel, i);
    }
  }

  /** One position of `lines`: kept as header, kept as a selected row, or dropped. */
  lemma KeptPosition(lines: seq<string>, key: string, h: nat, sel: seq<int>, i: int)
    requires h == if |lines| < HeaderLines then |lines| else HeaderLines
    requires 0 <= i < |lines|
    requires forall j :: 0 <= j < |lines| - h ==> (j in sel <==> KeepRow(lines[h..][j], key))
    ensures i in Range(h) + Shift(sel, h) <==> i < HeaderLines || KeepRow(lines[i], key)
  {
    ShiftMembers(sel, h, i);
    if i < h {
      assert Range(h)[i] == i;
    } else {
      assert lines[h..][i - h] == lines[i];
      assert i !in Range(h);
    }
    assert i in Range(h) + Shift(sel, h) <==> i in Range(h) || i in Shift(sel, h);
  }

  /** The first four lines (or all of them, if fewer) come through untouched. */
  lemma FilterKeepsHeader(lines: seq<string>, key: string)
    ensures |FilterCsv(lines, key)| <= |lines|
    ensures |lines| <= HeaderLines ==> FilterCsv(lines, key) == lines
    ensures |lines| > HeaderLines ==> FilterCsv(lines, key)[..HeaderLines] == lines[..HeaderLines]
    ensures IsSubsequence(FilterCsv(lines, key), lines)
  {
    var h := if |lines| < HeaderLines then |lines| else HeaderLines;
    SubsequencePrefix(lines[..h], SelectRows(lines[h..], key), lines[h..]);
    assert lines[..h] + lines[h..] == lines;
  }

  /** Selecting over one more row at the end. */
  lemma {:induction false} SelectRowsSnoc(rows: seq<string>, line: string, key: string)
    ensures SelectRows(rows + [line], key) == SelectRows(rows, key) + (if KeepRow(line, key) then [line] else [])
    decreases |rows|
  {
    if |rows| == 0 {
      assert [line][1..] == [];
    } else {
      assert (rows + [line])[1..] == rows[1..] + [line];
      SelectRowsSnoc(rows[1..], line, key);
    }
  }

  /** Selecting over a window of `lines` that grows by one line. */
  lemma SelectRowsStep(lines: seq<string>, h: nat, pos: nat, key: string)
    requires h <= pos < |lines|
    ensures SelectRows(lines[h..pos + 1], key)
      == SelectRows(lines[h..pos], key) + (if KeepRow(lines[pos], key) then [lines[pos]] else [])
  {
    var window, line := lines[h..pos], lines[pos];
    assert lines[h..pos + 1] == window + [line];
    SelectRowsSnoc(window, line, key);
  }

  /**
   * The four `readline` calls: each copies the next line, and yields nothing
   * once the stream is exhausted.
   */
  method CopyHeader(lines: seq<string>) returns (written: seq<string>, pos: nat)
    ensures pos == if |lines| < HeaderLines then |lines| else HeaderLines
    ensures written == lines[..pos]
  {
    written, pos := [], 0;
    var n := 0;
    while n < HeaderLines
      invariant 0 <= n <= HeaderLines
      invariant pos == if n < |lines| then n else |lines|
      invariant written == lines[..pos]
    {
      if pos < |lines| {
        written := written + [lines[pos]];
        pos := pos + 1;
      }
      n := n + 1;
    }
  }

  /**
   * The streaming loop as the code runs it: the header copied, then every
   * remaining line filtered as it arrives.
   */
  method StreamFilter(lines: seq<string>, key: string) returns (written: seq<string>)
    ensures written == FilterCsv(lines, key)
  {
    var header, h := CopyHeader(lines);
    var rows: seq<string> := [];
    var pos := h;
    while pos < |lines|
      invariant h <= pos <= |lines|
      invariant rows == SelectRows(lines[h..pos], key)
    {
      var line := lines[pos];
      SelectRowsStep(lines, h, pos, key);
      if KeepRow(line, key) {
        rows := rows + [line];
      }
      pos := pos + 1;
    }
    assert lines[h..pos] == lines[h..];
    written := header + rows;
  }

  /** The first field of `a,rest` is `a` when `a` has no comma. */
  lemma FirstFieldOf(a: string, rest: string)
    requires forall k :: 0 <= k < |a| ==> a[k] != ','
    ensures FirstField(a + "," + rest) == a
  {
    var line := a + "," + rest;
    assert line[..|a|] == a && line[|a|] == ',';
  }

  /** A row led by the key itself, with no padding around it, is kept. */
  lemma KeepsRowLedByKey(key: string, rest: string)
    requires |key| > 0 && !IsSpace(key[0]) && !IsSpace(key[|key| - 1])
    requires forall k :: 0 <= k < |key| ==> key[k] != ','
    ensures KeepRow(key + "," + rest, key)
  {
    FirstFieldOf(key, rest);
    assert TrimLeft(key) == key;
    assert TrimRight(key) == key;
    assert StartsWith(key, key);
  }

  /** A row whose first field is shorter than the key is dropped. */
  lemma DropsRowWithShortField(line: string, key: string)
    requires |FirstField(line)| < |key|
    ensures !KeepRow(line, key)
  {
    var f := FirstField(line);
    TrimLeftSpec(f);
    TrimRightSpec(TrimLeft(f));
    ContainsIffOccurs(Strip(f), key);
  }

  /**
   * Five header lines, then a matching and a non-matching row: only four
   * header lines are protected, so a fifth whose first field is shorter than
   * the key is filtered out with the other data rows.
   */
  lemma FiveHeaderLines(header: seq<string>, key: string, ball: string, hoodie: string)
    requires key == "Ball 2024" && ball == "Ball 2024,5,10.00" && hoodie == "Hoodie,3,20.00"
    requires |header| == 5 && |FirstField(header[4])| < |key|
    ensures FilterCsv(header + [ball, hoodie], key) == header[..4] + [ball]
  {
    var lines := header + [ball, hoodie];
    ScenarioRows(key, ball, hoodie);
    DropsRowWithShortField(header[4], key);
    assert lines[4..] == [header[4], ball, hoodie];
    SelectOneOfThree(header[4], ball, hoodie, key);
    assert lines[..4] == header[..4];
    assert FilterCsv(lines, key) == lines[..4] + SelectRows(lines[4..], key);
  }

  lemma ScenarioRows(key: string, ball: string, hoodie: string)
    requires key == "Ball 2024" && ball == "Ball 2024,5,10.00" && hoodie == "Hoodie,3,20.00"
    ensures KeepRow(ball, key) && !KeepRow(hoodie, key)
  {
    assert ball == key + "," + "5,10.00";
    assert hoodie == "Hoodie" + "," + "3,20.00";
    KeepsRowLedByKey(key, "5,10.00");
    FirstFieldOf("Hoodie", "3,20.00");
    DropsRowWithShortField(hoodie, key);
  }

  lemma SelectOneOfThree(a: string, b: string, c: string, key: string)
    requires !KeepRow(a, key) && KeepRow(b, key) && !KeepRow(c, key)
    ensures SelectRows([a, b, c], key) == [b]
  {
    assert [a, b, c][1..] == [b, c] && [b, c][1..] == [c] && [c][1..] == [];
    assert SelectRows([c], key) == [];
    assert SelectRows([b, c], key) == [b];
  }
}

=== FILE: dates.dfy ===
/**
 * The slice of Python's `datetime` the fetcher uses: `strptime` with the
 * format `%Y-%m-%d` on the request's dates, and `strftime` with `%d/%m/%Y`
 * and `%H:%M` when the dates are written into the portal's form.
 */
module Dates {

  import opened Common

  /** A naive `datetime`, down to the minute (seconds are never formatted). */
  datatype DateTime = DateTime(year: int, month: int, day: int, hour: int, minute: int)

  predicate IsLeapYear(y: int) {
    y % 4 == 0 && (y % 100 != 0 || y % 400 == 0)
  }

  function DaysInMonth(y: int, m: int): int
    requires 1 <= m <= 12
  {
    if m == 2 then (if IsLeapYear(y) then 29 else 28)
    else if m == 4 || m == 6 || m == 9 || m == 11 then 30
    else 31
  }

  /** The values a `datetime` object can hold (years 1 to 9999). */
  predicate ValidDateTime(d: DateTime) {
    && 1 <= d.year <= 9999
    && 1 <= d.month <= 12
    && 1 <= d.day <= DaysInMonth(d.year, d.month)
    && 0 <= d.hour < 24
    && 0 <= d.minute < 60
  }

  predicate IsDigit(c: char) {
    '0' <= c <= '9'
  }

  predicate AllDigits(s: string) {
    forall i :: 0 <= i < |s| ==> IsDigit(s[i])
  }

  function DigitChar(n: nat): (c: char)
    requires n < 10
    ensures IsDigit(c) && c as int - '0' as int == n
  {
    ('0' as int + n) as char
  }

  /** The decimal value of a string of digits. */
  function DigitsValue(s: string): nat
    requires AllDigits(s)
    decreases |s|
  {
    if |s| == 0 then 0
    else 10 * DigitsValue(s[..|s| - 1]) + (s[|s| - 1] as int - '0' as int)
  }

  function Pow10(n: nat): nat
    ensures Pow10(n) > 0
  {
    if n == 0 then 1 else 10 * Pow10(n - 1)
  }

  lemma Pow10Widths()
    ensures Pow10(2) == 100 && Pow10(4) == 10000
  {
    assert Pow10(1) == 10;
    assert Pow10(3) == 1000;
  }

  /** `n` written in exactly `width` digits, zero-padded on the left. */
  function Pad(n: nat, width: nat): (r: string)
    requires n < Pow10(width)
    ensures |r| == width && AllDigits(r)
    decreases width
  {
    if width == 0 then ""
    else Pad(n / 10, width - 1) + [DigitChar(n % 10)]
  }

  /** A padded field reads back as the number it was padded from. */
  lemma {:induction false} PadReadsBack(n: nat, width: nat)
    requires n < Pow10(width)
    ensures DigitsValue(Pad(n, width)) == n
    decreases width
  {
    if width > 0 {
      PadReadsBack(n / 10, width - 1);
      var r := Pad(n, width);
      assert r[..width - 1] == Pad(n / 10, width - 1);
    }
  }

  /** Reading a digit string back and re-padding it to its width gives it back. */
  lemma {:induction false} PadDigitsValue(t: string)
    requires AllDigits(t)
    ensures DigitsValue(t) < Pow10(|t|)
    ensures Pad(DigitsValue(t), |t|) == t
    decreases |t|
  {
    if |t| > 0 {
      var init := t[..|t| - 1];
      assert AllDigits(init);
      PadDigitsValue(init);
      var v := DigitsValue(t);
      assert v / 10 == DigitsValue(init);
      assert v % 10 == t[|t| - 1] as int - '0' as int;
    }
  }

  /** Where the three fields of `a s b t c` sit. */
  lemma ThreeFields(a: string, s: char, b: string, t: char, c: string)
    ensures var r := a + [s] + b + [t] + c;
      && |r| == |a| + |b| + |c| + 2
      && r[..|a|] == a && r[|a|] == s
      && r[|a| + 1..|a| + 1 + |b|] == b && r[|a| + 1 + |b|] == t
      && r[|a| + 2 + |b|..] == c
  {
  }

  /** `strftime("%d/%m/%Y")`. */
  function FormatDate(d: DateTime): string
    requires ValidDateTime(d)
  {
    Pow10Widths();
    Pad(d.day, 2) + "/" + Pad(d.month, 2) + "/" + Pad(d.year, 4)
  }

  /** `strftime("%H:%M")`. */
  function FormatTime(d: DateTime): string
    requires ValidDateTime(d)
  {
    Pow10Widths();
    Pad(d.hour, 2) + ":" + Pad(d.minute, 2)
  }

  /** The rendered date is `DD/MM/YYYY`, zero-padded, and reads back as the date. */
  lemma FormatDateLayout(d: DateTime)
    requires ValidDateTime(d)
    ensures |FormatDate(d)| == 10 && FormatDate(d)[2] == '/' && FormatDate(d)[5] == '/'
    ensures AllDigits(FormatDate(d)[..2]) && DigitsValue(FormatDate(d)[..2]) == d.day
    ensures AllDigits(FormatDate(d)[3..5]) && DigitsValue(FormatDate(d)[3..5]) == d.month
    ensures AllDigits(FormatDate(d)[6..]) && DigitsValue(FormatDate(d)[6..]) == d.year
  {
    Pow10Widths();
    var dd, mm, yyyy := Pad(d.day, 2), Pad(d.month, 2), Pad(d.year, 4);
    PadReadsBack(d.day, 2);
    PadReadsBack(d.month, 2);
    PadReadsBack(d.year, 4);
    ThreeFields(dd, '/', mm, '/', yyyy);
    assert FormatDate(d) == dd + ['/'] + mm + ['/'] + yyyy;
  }

  /** The rendered time is `HH:MM`, zero-padded, and reads back as the time. */
  lemma FormatTimeLayout(d: DateTime)
    requires ValidDateTime(d)
    ensures |FormatTime(d)| == 5 && FormatTime(d)[2] == ':'
    ensures AllDigits(FormatTime(d)[..2]) && DigitsValue(FormatTime(d)[..2]) == d.hour
    ensures AllDigits(FormatTime(d)[3..]) && DigitsValue(FormatTime(d)[3..]) == d.minute
  {
    Pow10Widths();
    var hh, mm := Pad(d.hour, 2), Pad(d.minute, 2);
    PadReadsBack(d.hour, 2);
    PadReadsBack(d.minute, 2);
    assert (hh + ":" + mm)[..2] == hh;
    assert (hh + ":" + mm)[3..] == mm;
  }

  /** The ISO rendering `YYYY-MM-DD` that `strptime("%Y-%m-%d")` reads. */
  function FormatIsoDate(d: DateTime): string
    requires ValidDateTime(d)
  {
    Pow10Widths();
    Pad(d.year, 4) + "-" + Pad(d.month, 2) + "-" + Pad(d.day, 2)
  }

  /**
   * `datetime.strptime(s, "%Y-%m-%d")` on the zero-padded form: the time of
   * day is midnight, and an impossible calendar date is refused.
   */
  function ParseIsoDate(s: string): (r: Option<DateTime>)
    ensures r.Some? ==> ValidDateTime(r.value) && r.value.hour == 0 && r.value.minute == 0
  {
    if |s| == 10 && s[4] == '-' && s[7] == '-' && AllDigits(s[..4]) && AllDigits(s[5..7]) && AllDigits(s[8..]) then
      var y, m, d := DigitsValue(s[..4]), DigitsValue(s[5..7]), DigitsValue(s[8..]);
      if 1 <= y && 1 <= m <= 12 && 1 <= d <= DaysInMonth(y, m) then
        PadDigitsValue(s[..4]);
        Some(DateTime(y, m, d, 0, 0))
      else None
    else None
  }

  /** The ISO rendering is `YYYY-MM-DD`, zero-padded, and reads back as the date. */
  lemma FormatIsoDateLayout(d: DateTime)
    requires ValidDateTime(d)
    ensures |FormatIsoDate(d)| == 10 && FormatIsoDate(d)[4] == '-' && FormatIsoDate(d)[7] == '-'
    ensures AllDigits(FormatIsoDate(d)[..4]) && DigitsValue(FormatIsoDate(d)[..4]) == d.year
    ensures AllDigits(FormatIsoDate(d)[5..7]) && DigitsValue(FormatIsoDate(d)[5..7]) == d.month
    ensures AllDigits(FormatIsoDate(d)[8..]) && DigitsValue(FormatIsoDate(d)[8..]) == d.day
  {
    Pow10Widths();
    var s := FormatIsoDate(d);
    assert |s| == 10 && s[4] == '-' && s[7] == '-' by {
      ThreeFields(Pad(d.year, 4), '-', Pad(d.month, 2), '-', Pad(d.day, 2));
    }
    assert AllDigits(s[..4]) && DigitsValue(s[..4]) == d.year by {
      PadReadsBack(d.year, 4);
      ThreeFields(Pad(d.year, 4), '-', Pad(d.month, 2), '-', Pad(d.day, 2));
    }
    assert AllDigits(s[5..7]) && DigitsValue(s[5..7]) == d.month by {
      PadReadsBack(d.month, 2);
      ThreeFields(Pad(d.year, 4), '-', Pad(d.month, 2), '-', Pad(d.day, 2));
    }
    assert AllDigits(s[8..]) && DigitsValue(s[8..]) == d.day by {
      PadReadsBack(d.day, 2);
      ThreeFields(Pad(d.year, 4), '-', Pad(d.month, 2), '-', Pad(d.day, 2));
    }
  }

  /** Every midnight date survives being written out and read back. */
  lemma ParseFormatIsoDate(d: DateTime)
    requires ValidDateTime(d) && d.hour == 0 && d.minute == 0
    ensures ParseIsoDate(FormatIsoDate(d)) == Some(d)
  {
    FormatIsoDateLayout(d);
    ParseIsoDateFields(FormatIsoDate(d), d);
  }

  /** The parser accepts a `YYYY-MM-DD` layout whose fields read as a valid date. */
  lemma ParseIsoDateFields(s: string, d: DateTime)
    requires ValidDateTime(d) && d.hour == 0 && d.minute == 0
    requires |s| == 10 && s[4] == '-' && s[7] == '-'
    requires AllDigits(s[..4]) && AllDigits(s[5..7]) && AllDigits(s[8..])
    requires DigitsValue(s[..4]) == d.year && DigitsValue(s[5..7]) == d.month && DigitsValue(s[8..]) == d.day
    ensures ParseIsoDate(s) == Some(d)
  {
  }

  /** Every string the parser accepts is exactly the rendering of what it read. */
  lemma FormatParseIsoDate(s: string)
    requires ParseIsoDate(s).Some?
    ensures FormatIsoDate(ParseIsoDate(s).value) == s
  {
    PadDigitsValue(s[..4]);
    PadDigitsValue(s[5..7]);
    PadDigitsValue(s[8..]);
    assert s == s[..4] + "-" + s[5..7] + "-" + s[8..];
  }
}

=== FILE: export_url.dfy ===
/**
 * Locating the CSV export link in the postback response: the search for
 * `ExportUrlBase":"(.*?)"`, the unescaping of the captured JSON text, and
 * the final download URL (css-reports/report.py).
 */
module ExportUrl {

  import opened Common

  /** The literal text in front of the capture group. */
  const Marker: string := "ExportUrlBase\":\""

  const UrlPrefix: string := "https://guildofstudents.com/"
  const UrlSuffix: string := "CSV"

  /** The JSON escapes the code undoes, written as the six and two characters they are. */
  const EscapedAmpersand: string := "\\u0026"
  const EscapedSlash: string := "\\/"

  /** Text a lazy `.*?` can span before the closing quote: no quote, no newline. */
  predicate Plain(t: string) {
    forall k :: 0 <= k < |t| ==> t[k] != '"' && t[k] != '\n'
  }

  /**
   * From index `i`, the index of the first quote, unless a newline comes
   * first or the text ends.
   */
  function CloseQuote(s: string, i: nat): (r: Option<nat>)
    requires i <= |s|
    ensures r.Some? ==> i <= r.value < |s|
    decreases |s| - i
  {
    if i == |s| then None
    else if s[i] == '"' then Some(i)
    else if s[i] == '\n' then None
    else CloseQuote(s, i + 1)
  }

  /** The capture of a match that starts at index `p`, if the pattern matches there. */
  function MatchAt(s: string, p: nat): Option<string>
    requires p <= |s|
  {
    if OccursAt(s, Marker, p) then
      match CloseQuote(s, p + |Marker|)
      case Some(q) => Some(s[p + |Marker|..q])
      case None => None
    else None
  }

  /** `re.search`: the capture of the leftmost match at or after index `p`. */
  function SearchFrom(s: string, p: nat): Option<string>
    requires p <= |s|
    decreases |s| - p
  {
    if MatchAt(s, p).Some? then MatchAt(s, p)
    else if p == |s| then None
    else SearchFrom(s, p + 1)
  }

  /** `re.search(r'ExportUrlBase":"(.*?)"', html)` and its group 1. */
  function FindExportBase(s: string): Option<string> {
    SearchFrom(s, 0)
  }

  /** Declaratively: the marker, then `cap`, then a quote, sit at index `p`. */
  predicate MatchesAt(s: string, p: int, cap: string) {
    Plain(cap) && OccursAt(s, Marker + cap + "\"", p)
  }

  /** `str.replace` of the escape `\u0026` by `&`, then of `\/` by `/`. */
  function Unescape(t: string): string {
    ReplaceAll(ReplaceAll(t, EscapedAmpersand, "&"), EscapedSlash, "/")
  }

  /** The CSV download URL, by plain concatenation. */
  function CsvUrl(base: string): (url: string)
    ensures |url| == |UrlPrefix| + |base| + |UrlSuffix|
    ensures StartsWith(url, UrlPrefix) && url[|UrlPrefix|..|url| - |UrlSuffix|] == base
    ensures url[|url| - |UrlSuffix|..] == UrlSuffix
  {
    var url := UrlPrefix + base + UrlSuffix;
    assert url[..|UrlPrefix|] == UrlPrefix;
    url
  }

  lemma {:induction false} CloseQuoteSpec(s: string, i: nat, q: int)
    requires i <= |s|
    ensures CloseQuote(s, i) == Some(q) <==> (i <= q < |s| && s[q] == '"' && Plain(s[i..q]))
    decreases |s| - i
  {
    if i < |s| {
      if i < q <= |s| {
        assert s[i..q][0] == s[i];
        assert forall k :: 1 <= k < q - i ==> s[i..q][k] == s[i + 1..q][k - 1];
      }
      if s[i] != '"' && s[i] != '\n' {
        CloseQuoteSpec(s, i + 1, q);
      }
    }
  }

  lemma MatchAtSpec(s: string, p: nat, cap: string)
    requires p <= |s|
    ensures MatchAt(s, p) == Some(cap) <==> MatchesAt(s, p, cap)
  {
    var m := |Marker|;
    var q := p + m + |cap|;
    OccursConcat(s, Marker + cap, "\"", p);
    OccursConcat(s, Marker, cap, p);
    if MatchAt(s, p) == Some(cap) {
      CloseQuoteSpec(s, p + m, CloseQuote(s, p + m).value);
      assert s[q..q + 1] == "\"";
    }
    if MatchesAt(s, p, cap) {
      CloseQuoteSpec(s, p + m, q);
    }
  }

  lemma {:induction false} SearchFromFound(s: string, p0: nat) returns (p: nat)
    requires p0 <= |s| && SearchFrom(s, p0).Some?
    ensures p0 <= p <= |s| && MatchAt(s, p) == SearchFrom(s, p0)
    ensures forall p' :: p0 <= p' < p ==> MatchAt(s, p').None?
    decreases |s| - p0
  {
    if MatchAt(s, p0).Some? {
      p := p0;
    } else {
      p := SearchFromFound(s, p0 + 1);
    }
  }

  lemma {:induction false} SearchFromAbsent(s: string, p0: nat)
    requires p0 <= |s| && SearchFrom(s, p0).None?
    ensures forall p' :: p0 <= p' <= |s| ==> MatchAt(s, p').None?
    decreases |s| - p0
  {
    if p0 < |s| {
      SearchFromAbsent(s, p0 + 1);
    }
  }

  /**
   * A found base is the text between the leftmost complete match's marker
   * and its closing quote; it holds neither a quote nor a newline.
   */
  lemma ExportBaseLeftmost(s: string) returns (p: nat)
    requires FindExportBase(s).Some?
    ensures MatchesAt(s, p, FindExportBase(s).value)
    ensures forall k :: 0 <= k < |FindExportBase(s).value| ==> FindExportBase(s).value[k] != '"'
    ensures forall p', c :: 0 <= p' < p ==> !MatchesAt(s, p', c)
  {
    p := SearchFromFound(s, 0);
    var cap := FindExportBase(s).value;
    MatchAtSpec(s, p, cap);
    forall p', c | 0 <= p' < p
      ensures !MatchesAt(s, p', c)
    {
      MatchAtSpec(s, p', c);
    }
  }

  /** No base is found exactly when the text holds no complete match anywhere. */
  lemma ExportBaseAbsent(s: string)
    ensures FindExportBase(s).None? <==> forall p, c :: !MatchesAt(s, p, c)
  {
    if FindExportBase(s).None? {
      SearchFromAbsent(s, 0);
      forall p, c | 0 <= p <= |s|
        ensures !MatchesAt(s, p, c)
      {
        MatchAtSpec(s, p, c);
      }
    } else {
      var p := ExportBaseLeftmost(s);
    }
  }

  /** The escaping the portal applies, for text without backslashes. */
  function Escape(x: string): string
    decreases |x|
  {
    if |x| == 0 then ""
    else (if x[0] == '&' then EscapedAmpersand else if x[0] == '/' then EscapedSlash else [x[0]]) + Escape(x[1..])
  }

  /** Only the slashes escaped: what remains after the first replacement. */
  function EscapeSlashes(x: string): string
    decreases |x|
  {
    if |x| == 0 then ""
    else (if x[0] == '/' then EscapedSlash else [x[0]]) + EscapeSlashes(x[1..])
  }

  predicate NoBackslash(x: string) {
    forall k :: 0 <= k < |x| ==> x[k] != '\\'
  }

  /** An escaped slash is not the start of an escaped ampersand, so it is passed over. */
  lemma SlashSkipsAmpersand(rest: string)
    ensures ReplaceAll(EscapedSlash + rest, EscapedAmpersand, "&") == EscapedSlash + ReplaceAll(rest, EscapedAmpersand, "&")
  {
    var t := ['/'] + rest;
    assert EscapedSlash + rest == ['\\'] + t;
    assert !StartsWith(['\\'] + t, EscapedAmpersand) by {
      assert EscapedAmpersand[1] == 'u';
    }
    ReplaceAllKeepsHead('\\', t, EscapedAmpersand, "&");
    ReplaceAllKeepsHead('/', rest, EscapedAmpersand, "&");
  }

  lemma {:induction false} UnescapeAmpersands(x: string)
    requires NoBackslash(x)
    ensures ReplaceAll(Escape(x), EscapedAmpersand, "&") == EscapeSlashes(x)
    decreases |x|
  {
    if |x| > 0 {
      var rest := Escape(x[1..]);
      assert NoBackslash(x[1..]);
      UnescapeAmpersands(x[1..]);
      if x[0] == '&' {
        assert Escape(x) == EscapedAmpersand + rest;
        ReplaceAllReplacesHead(rest, EscapedAmpersand, "&");
      } else if x[0] == '/' {
        assert Escape(x) == EscapedSlash + rest;
        SlashSkipsAmpersand(rest);
      } else {
        assert Escape(x) == [x[0]] + rest;
        ReplaceAllKeepsHead(x[0], rest, EscapedAmpersand, "&");
      }
    }
  }

  lemma {:induction false} UnescapeSlashes(x: string)
    requires NoBackslash(x)
    ensures ReplaceAll(EscapeSlashes(x), EscapedSlash, "/") == x
    decreases |x|
  {
    if |x| > 0 {
      var rest := EscapeSlashes(x[1..]);
      UnescapeSlashes(x[1..]);
      if x[0] == '/' {
        ReplaceAllReplacesHead(rest, EscapedSlash, "/");
      } else {
        ReplaceAllKeepsHead(x[0], rest, EscapedSlash, "/");
      }
      assert x == [x[0]] + x[1..];
    }
  }

  /** Unescaping undoes the portal's escaping of `&` and `/`. */
  lemma UnescapeEscape(x: string)
    requires NoBackslash(x)
    ensures Unescape(Escape(x)) == x
  {
    UnescapeAmpersands(x);
    UnescapeSlashes(x);
  }

  lemma PlainConcat(a: string, b: string)
    requires Plain(a) && Plain(b)
    ensures Plain(a + b)
  {
    assert forall k :: |a| <= k < |a + b| ==> (a + b)[k] == b[k - |a|];
  }

  /** Escaping adds no quote and no newline. */
  lemma {:induction false} EscapePlain(x: string)
    requires Plain(x)
    ensures Plain(Escape(x))
    decreases |x|
  {
    if |x| > 0 {
      assert Plain(x[1..]);
      EscapePlain(x[1..]);
      var head := if x[0] == '&' then EscapedAmpersand else if x[0] == '/' then EscapedSlash else [x[0]];
      assert Plain(head);
      PlainConcat(head, Escape(x[1..]));
    }
  }

  /**
   * A response that opens with the marker and the escaped form of `x` yields
   * the download URL for `x` itself.
   */
  lemma LeadingExportBase(x: string, rest: string)
    requires Plain(x) && NoBackslash(x)
    ensures FindExportBase(Marker + Escape(x) + "\"" + rest) == Some(Escape(x))
    ensures CsvUrl(Unescape(Escape(x))) == UrlPrefix + x + UrlSuffix
  {
    var s := Marker + Escape(x) + "\"" + rest;
    EscapePlain(x);
    assert s[..|Marker + Escape(x) + "\""|] == Marker + Escape(x) + "\"";
    assert MatchesAt(s, 0, Escape(x));
    MatchAtSpec(s, 0, Escape(x));
    UnescapeEscape(x);
  }

  /**
   * A raw prefix before an escaped part survives unescaping unchanged, so a
   * base in which only some slashes are escaped is restored as well.
   */
  lemma UnescapeRawPrefix(a: string, y: string)
    requires NoBackslash(a) && NoBackslash(y)
    ensures Unescape(a + Escape(y)) == a + y
  {
    NoOccurrenceWithout(a, Escape(y), EscapedAmpersand);
    ReplaceAllSkips(a, Escape(y), EscapedAmpersand, "&");
    UnescapeAmpersands(y);
    NoOccurrenceWithout(a, EscapeSlashes(y), EscapedSlash);
    ReplaceAllSkips(a, EscapeSlashes(y), EscapedSlash, "/");
    UnescapeSlashes(y);
  }

  /**
   * A response whose export base is a raw `a` followed by the escaped form
   * of `y` is captured whole and yields the download URL for `a + y`.
   */
  lemma PartlyEscapedExportBase(a: string, y: string, rest: string)
    requires Plain(a) && NoBackslash(a) && Plain(y) && NoBackslash(y)
    ensures FindExportBase(Marker + a + Escape(y) + "\"" + rest) == Some(a + Escape(y))
    ensures CsvUrl(Unescape(a + Escape(y))) == UrlPrefix + a + y + UrlSuffix
  {
    var e := Escape(y);
    EscapePlain(y);
    PlainConcat(a, e);
    assert Marker + a + e == Marker + (a + e);
    CapturedWhole(a + e, rest);
    PartlyEscapedUrl(a, y);
  }

  lemma PartlyEscapedUrl(a: string, y: string)
    requires NoBackslash(a) && NoBackslash(y)
    ensures CsvUrl(Unescape(a + Escape(y))) == UrlPrefix + a + y + UrlSuffix
  {
    var base := Unescape(a + Escape(y));
    UnescapeRawPrefix(a, y);
    assert CsvUrl(base) == UrlPrefix + base + UrlSuffix;
    assert UrlPrefix + (a + y) + UrlSuffix == UrlPrefix + a + y + UrlSuffix;
  }

  /** A body that opens with the marker and a plain capture yields that capture. */
  lemma CapturedWhole(cap: string, rest: string)
    requires Plain(cap)
    ensures FindExportBase(Marker + cap + "\"" + rest) == Some(cap)
  {
    var s := Marker + cap + "\"" + rest;
    assert s[..|Marker + cap + "\""|] == Marker + cap + "\"";
    assert MatchesAt(s, 0, cap);
    MatchAtSpec(s, 0, cap);
  }

  /**
   * With only the last slash and the ampersand escaped, the capture is still
   * the whole base and the doubled slash appears as before.
   */
  lemma SingleEscapedSlashScenario(a: string, y: string)
    requires a == "/Org/123/Report" && y == "/abc&x=1"
    ensures a + Escape(y) == "/Org/123/Report\\/abc\\u0026x=1"
    ensures FindExportBase(Marker + a + Escape(y) + "\"") == Some(a + Escape(y))
    ensures CsvUrl(Unescape(a + Escape(y))) == "https://guildofstudents.com//Org/123/Report/abc&x=1CSV"
  {
    SamplePlain(a, y);
    PartlyEscapedExportBase(a, y, "");
    assert Marker + a + Escape(y) + "\"" + "" == Marker + a + Escape(y) + "\"";
    SampleUrl(a, y);
    SampleCapture(a, y);
  }

  lemma SamplePlain(a: string, y: string)
    requires a == "/Org/123/Report" && y == "/abc&x=1"
    ensures Plain(a) && NoBackslash(a) && Plain(y) && NoBackslash(y)
  {
    forall k | 0 <= k < |a|
      ensures a[k] != '"' && a[k] != '\n' && a[k] != '\\'
    {
    }
    forall k | 0 <= k < |y|
      ensures y[k] != '"' && y[k] != '\n' && y[k] != '\\'
    {
    }
  }

  lemma SampleUrl(a: string, y: string)
    requires a == "/Org/123/Report" && y == "/abc&x=1"
    ensures UrlPrefix + a + y + UrlSuffix == "https://guildofstudents.com//Org/123/Report/abc&x=1CSV"
  {
  }

  lemma SampleCapture(a: string, y: string)
    requires a == "/Org/123/Report" && y == "/abc&x=1"
    ensures a + Escape(y) == "/Org/123/Report\\/abc\\u0026x=1"
  {
    SampleEscape(y);
  }

  lemma SampleEscape(y: string)
    requires y == "/abc&x=1"
    ensures Escape(y) == "\\/abc\\u0026x=1"
  {
    EscapePieces(y, "/", "abc", "&", "x=1");
  }

  lemma EscapePieces(y: string, u: string, v: string, w: string, z: string)
    requires u == "/" && v == "abc" && w == "&" && z == "x=1" && y == u + v + w + z
    ensures Escape(y) == EscapedSlash + v + EscapedAmpersand + z
  {
    EscapeConcat(u + v + w, z);
    EscapeConcat(u + v, w);
    EscapeConcat(u, v);
    EscapeOther(v);
    EscapeOther(z);
  }

  /** Escaping works character by character. */
  lemma {:induction false} EscapeConcat(a: string, b: string)
    ensures Escape(a + b) == Escape(a) + Escape(b)
    decreases |a|
  {
    if |a| == 0 {
      assert a + b == b;
    } else {
      assert (a + b)[1..] == a[1..] + b;
      EscapeConcat(a[1..], b);
    }
  }

  /** Text without `&` or `/` is not changed by escaping. */
  lemma {:induction false} EscapeOther(z: string)
    requires forall k :: 0 <= k < |z| ==> z[k] != '&' && z[k] != '/'
    ensures Escape(z) == z
    decreases |z|
  {
    if |z| > 0 {
      EscapeOther(z[1..]);
      assert z == [z[0]] + z[1..];
    }
  }

  /**
   * The base is appended to a prefix that already ends in `/`, so a base
   * that starts with `/` produces a doubled slash.
   */
  lemma OrgPathScenario(x: string)
    requires x == "/Org/123/Report/abc&x=1"
    ensures FindExportBase(Marker + Escape(x) + "\"") == Some(Escape(x))
    ensures CsvUrl(Unescape(Escape(x))) == "https://guildofstudents.com//Org/123/Report/abc&x=1CSV"
  {
    assert Plain(x) && NoBackslash(x) by {
      forall k | 0 <= k < |x|
        ensures x[k] != '"' && x[k] != '\n' && x[k] != '\\'
      {
      }
    }
    LeadingExportBase(x, "");
    assert Marker + Escape(x) + "\"" + "" == Marker + Escape(x) + "\"";
    OrgPathText(x);
  }

  lemma OrgPathText(x: string)
    requires x == "/Org/123/Report/abc&x=1"
    ensures UrlPrefix + x + UrlSuffix == "https://guildofstudents.com//Org/123/Report/abc&x=1CSV"
  {
  }
}

=== FILE: failures.dfy ===
/**
 * The exceptions the report fetcher raises, each with the text `str(e)`
 * gives, which the endpoint copies into its JSON error body.
 */
module Failures {

  datatype ReportError =
    | LoginRedirect       // the context page is the login page
    | TitleMissing        // the page has no <title>: AttributeError on `.string`
    | TitleNotText        // `<title>.string` is None: TypeError on `"Login" in None`
    | ReportsNotLoaded    // no report viewer, or it renders no text
    | NoTransactions      // the report says "no transactions"
    | ExportUrlNotFound   // no `ExportUrlBase":"..."` in the response
    | EmptyReportUrl      // the unescaped export URL base is empty
    | ReportUrlMissing    // the postback answered with a non-200 status
    | FileStatus          // the CSV download answered with a non-200 status

  function Message(e: ReportError): string {
    match e
    case LoginRedirect => "Redirected to login page!"
    case TitleMissing => "'NoneType' object has no attribute 'string'"
    case TitleNotText => "argument of type 'NoneType' is not iterable"
    case ReportsNotLoaded => "Failed to load the reports."
    case NoTransactions => "No transactions were found!"
    case ExportUrlNotFound => "Failed to find the report export url from the http response."
    case EmptyReportUrl => "Failed to construct report url!"
    case ReportUrlMissing => "Failed to retrieve customisations report URL."
    case FileStatus => "Customisation report file session returned a non 200 status code."
  }
}

=== FILE: postback.dfy ===
/**
 * The report-generation postback (`fetch_report_url_and_cookies` in
 * css-reports/report.py): the harvested form fields with the date range,
 * the event target naming the report, and an empty event argument laid over.
 */
module Postback {

  import opened Dates

  const FromDateKey: string := "ctl00$ctl00$Main$AdminPageContent$drDateRange$txtFromDate"
  const FromTimeKey: string := "ctl00$ctl00$Main$AdminPageContent$drDateRange$txtFromTime"
  const ToDateKey: string := "ctl00$ctl00$Main$AdminPageContent$drDateRange$txtToDate"
  const ToTimeKey: string := "ctl00$ctl00$Main$AdminPageContent$drDateRange$txtToTime"
  const EventTargetKey: string := "__EVENTTARGET"
  const EventArgumentKey: string := "__EVENTARGUMENT"

  /** The event target is this prefix followed by the report type. */
  const EventTargetPrefix: string := "ctl00$ctl00$Main$AdminPageContent$lb"

  /** The six keys the postback always sets. */
  function OverlayKeys(): set<string> {
    {FromDateKey, FromTimeKey, ToDateKey, ToTimeKey, EventTargetKey, EventArgumentKey}
  }

  /** The fixed part of the postback. */
  function FormData(from: DateTime, to: DateTime, reportType: string): map<string, string>
    requires ValidDateTime(from) && ValidDateTime(to)
  {
    map[
      FromDateKey := FormatDate(from),
      FromTimeKey := FormatTime(from),
      ToDateKey := FormatDate(to),
      ToTimeKey := FormatTime(to),
      EventTargetKey := EventTargetPrefix + reportType,
      EventArgumentKey := ""
    ]
  }

  /** `data_fields.update(form_data)`: the harvested fields, overridden on the six keys. */
  function PostbackData(fields: map<string, string>, from: DateTime, to: DateTime, reportType: string): (data: map<string, string>)
    requires ValidDateTime(from) && ValidDateTime(to)
    ensures data.Keys == fields.Keys + OverlayKeys()
    ensures data[FromDateKey] == FormatDate(from) && data[FromTimeKey] == FormatTime(from)
    ensures data[ToDateKey] == FormatDate(to) && data[ToTimeKey] == FormatTime(to)
    ensures data[EventTargetKey] == EventTargetPrefix + reportType
    ensures data[EventArgumentKey] == ""
    ensures forall k :: k in fields && k !in OverlayKeys() ==> data[k] == fields[k]
  {
    fields + FormData(from, to, reportType)
  }
}

=== FILE: report.dfy ===
/**
 * The report workflow of css-reports/report.py, with the portal's three
 * HTTP exchanges passed in as pure functions: the authenticated GET of the
 * sales-reports page, the postback that generates the report, and the CSV
 * download.
 */
module Report {

  import opened Common
  import opened Failures
  import opened Dates
  import opened Context
  import opened Postback
  import opened ExportUrl
  import opened CsvFilter

  /** The fixed name of the file the filtered report is written to. */
  const ReportFileName: string := "customisations.csv"

  const NoTransactionsText: string := "no transactions"

  /** What the postback returns: status, raw body, and the report viewer's text if the div exists. */
  datatype PostResponse = PostResponse(status: int, body: string, viewer: Option<string>)

  /** What the CSV download returns: status and the body's lines. */
  datatype FileResponse = FileResponse(status: int, lines: seq<string>)

  /** The portal, as seen by the three requests (URL, form data and cookies in; response out). */
  datatype Portal = Portal(
    fetchPage: (string, map<string, string>) -> PageResponse,
    postForm: (string, map<string, string>, map<string, string>) -> PostResponse,
    download: (string, map<string, string>) -> FileResponse)

  /** The pair `fetch_report_url_and_cookies` returns: a URL or None, and cookies. */
  datatype ReportLink = ReportLink(url: Option<string>, cookies: map<string, string>)

  /** The written report file: its name and its lines. */
  datatype Artifact = Artifact(path: string, lines: seq<string>)

  function SalesReportsUrl(org: string): string {
    "https://www.guildofstudents.com/organisation/salesreports/" + org + "/"
  }

  /** The report viewer exists and its text is not blank. */
  predicate ViewerRendered(resp: PostResponse) {
    resp.viewer.Some? && Strip(resp.viewer.value) != ""
  }

  /**
   * The checks on the postback response, in the code's order; the first that
   * applies decides. A non-200 status is not an exception but `(None, {})`.
   */
  function ClassifyResponse(resp: PostResponse, cookies: map<string, string>): (r: Result<ReportLink, ReportError>)
    ensures resp.status != 200 ==> r == Ok(ReportLink(None, map[]))
    ensures r == Err(ReportsNotLoaded) <==> resp.status == 200 && !ViewerRendered(resp)
    ensures r == Err(NoTransactions) <==>
      resp.status == 200 && ViewerRendered(resp) && Contains(resp.body, NoTransactionsText)
    ensures r == Err(ExportUrlNotFound) <==>
      resp.status == 200 && ViewerRendered(resp) && !Contains(resp.body, NoTransactionsText)
      && FindExportBase(resp.body).None?
    ensures r == Err(EmptyReportUrl) <==>
      resp.status == 200 && ViewerRendered(resp) && !Contains(resp.body, NoTransactionsText)
      && FindExportBase(resp.body).Some? && Unescape(FindExportBase(resp.body).value) == ""
    ensures r.Ok? && r.value.url.Some? <==>
      resp.status == 200 && ViewerRendered(resp) && !Contains(resp.body, NoTransactionsText)
      && FindExportBase(resp.body).Some? && Unescape(FindExportBase(resp.body).value) != ""
    ensures r.Ok? && r.value.url.Some? ==>
      r.value.url.value == CsvUrl(Unescape(FindExportBase(resp.body).value)) && r.value.cookies == cookies
  {
    if resp.status != 200 then Ok(ReportLink(None, map[]))
    else if !ViewerRendered(resp) then Err(ReportsNotLoaded)
    else if Contains(resp.body, NoTransactionsText) then Err(NoTransactions)
    else
      match FindExportBase(resp.body)
      case None => Err(ExportUrlNotFound)
      case Some(cap) =>
        var base := Unescape(cap);
        if base == "" then Err(EmptyReportUrl) else Ok(ReportLink(Some(CsvUrl(base)), cookies))
  }

  /** The session context `get_msl_context` builds for `org` from the caller's token. */
  function SessionFor(portal: Portal, auth: string, org: string): Result<SessionContext, ReportError> {
    SessionAt(portal, auth, SalesReportsUrl(org))
  }

  /** The session context built from the page at `page`, fetched with the caller's token. */
  function SessionAt(portal: Portal, auth: string, page: string): (r: Result<SessionContext, ReportError>)
    ensures r.Ok? ==> AuthCookie in r.value.cookies && r.value.cookies[AuthCookie] == auth
  {
    BuildContext(portal.fetchPage(page, map[AuthCookie := auth]), auth)
  }

  /** The portal's answer to the postback sent to `org`'s page with the context's fields and cookies. */
  function PostbackResponse(portal: Portal, org: string, ctx: SessionContext, from: DateTime, to: DateTime, reportType: string): PostResponse
    requires ValidDateTime(from) && ValidDateTime(to)
  {
    portal.postForm(SalesReportsUrl(org), PostbackData(ctx.fields, from, to, reportType), ctx.cookies)
  }

  /** The errors the postback's classification can raise. */
  predicate ClassificationError(e: ReportError) {
    e == ReportsNotLoaded || e == NoTransactions || e == ExportUrlNotFound || e == EmptyReportUrl
  }

  /**
   * `fetch_report_url_and_cookies`: context, postback, classification, with
   * the outcome `LinkFrom` promises for the context; and a failed postback
   * gives no URL and no cookies.
   */
  function FetchReportUrl(portal: Portal, auth: string, org: string, from: DateTime, to: DateTime, reportType: string): (r: Result<ReportLink, ReportError>)
    requires ValidDateTime(from) && ValidDateTime(to)
    ensures LinkFrom(SessionFor(portal, auth, org), auth, r)
    ensures var ctx := SessionFor(portal, auth, org);
      ctx.Ok? && PostbackResponse(portal, org, ctx.value, from, to, reportType).status != 200
      ==> r == Ok(ReportLink(None, map[]))
  {
    FetchReportUrlAt(portal, auth, SalesReportsUrl(org), FormData(from, to, reportType))
  }

  /**
   * What the URL step promises about its outcome `r` once `session` is known:
   * a context error is raised unchanged and nothing is posted; after that
   * only the classification's errors remain; an outcome without a URL has no
   * cookies; a found URL is on the portal's host and comes with the caller's
   * token.
   */
  predicate LinkFrom(session: Result<SessionContext, ReportError>, auth: string, r: Result<ReportLink, ReportError>) {
    && (session.Err? ==> r == Err(session.error))
    && (session.Ok? && r.Err? ==> ClassificationError(r.error))
    && (r.Ok? && r.value.url.None? ==> r.value.cookies == map[])
    && (r.Ok? && r.value.url.Some? ==>
          && AuthCookie in r.value.cookies && r.value.cookies[AuthCookie] == auth
          && StartsWith(r.value.url.value, UrlPrefix))
  }

  /**
   * The same three steps for any page and any overlay: the page is fetched,
   * its fields with `overlay` laid over are posted back to it, and the
   * response is classified.
   */
  function FetchReportUrlAt(portal: Portal, auth: string, page: string, overlay: map<string, string>): (r: Result<ReportLink, ReportError>)
    ensures LinkFrom(SessionAt(portal, auth, page), auth, r)
    ensures var ctx := SessionAt(portal, auth, page);
      ctx.Ok? && portal.postForm(page, ctx.value.fields + overlay, ctx.value.cookies).status != 200
      ==> r == Ok(ReportLink(None, map[]))
  {
    match SessionAt(portal, auth, page)
    case Err(e) => Err(e)
    case Ok(ctx) => ClassifyResponse(portal.postForm(page, ctx.fields + overlay, ctx.cookies), ctx.cookies)
  }

  /**
   * When the step succeeds: once the context is built, a link with a URL is
   * returned exactly when the postback answers 200 with a rendered viewer,
   * no "no transactions" notice and a non-empty unescaped export base; the
   * link is then the CSV URL of that base, with the context's cookie jar.
   */
  lemma PostbackFindsReport(portal: Portal, auth: string, org: string, from: DateTime, to: DateTime, reportType: string)
    requires ValidDateTime(from) && ValidDateTime(to)
    ensures var ctx := SessionFor(portal, auth, org);
      var r := FetchReportUrl(portal, auth, org, from, to, reportType);
      ctx.Ok? ==>
        var resp := PostbackResponse(portal, org, ctx.value, from, to, reportType);
        && (r.Ok? && r.value.url.Some? <==>
              resp.status == 200 && ViewerRendered(resp) && !Contains(resp.body, NoTransactionsText)
              && FindExportBase(resp.body).Some? && Unescape(FindExportBase(resp.body).value) != "")
        && (r.Ok? && r.value.url.Some? ==>
              r == Ok(ReportLink(Some(CsvUrl(Unescape(FindExportBase(resp.body).value))), ctx.value.cookies)))
  {
  }

  /** The postback requests the report naming what it carries: the caller's token, the report type and the dates. */
  predicate CarriesRequest(data: map<string, string>, cookies: map<string, string>, auth: string, from: DateTime, to: DateTime, reportType: string)
    requires ValidDateTime(from) && ValidDateTime(to)
  {
    && AuthCookie in cookies && cookies[AuthCookie] == auth
    && EventTargetKey in data && data[EventTargetKey] == EventTargetPrefix + reportType
    && FromDateKey in data && data[FromDateKey] == FormatDate(from)
    && ToDateKey in data && data[ToDateKey] == FormatDate(to)
  }

  /**
   * The URL step sends one postback, to the sales-reports page, carrying the
   * token, the report type and the dates: two portals that serve the same
   * page and answer such postbacks alike give the same outcome, however they
   * answer any other request.
   */
  lemma PostbackCarriesRequest(p1: Portal, p2: Portal, auth: string, org: string, from: DateTime, to: DateTime, reportType: string)
    requires ValidDateTime(from) && ValidDateTime(to)
    requires p1.fetchPage(SalesReportsUrl(org), map[AuthCookie := auth]) == p2.fetchPage(SalesReportsUrl(org), map[AuthCookie := auth])
    requires forall d, c :: CarriesRequest(d, c, auth, from, to, reportType) ==>
      p1.postForm(SalesReportsUrl(org), d, c) == p2.postForm(SalesReportsUrl(org), d, c)
    ensures FetchReportUrl(p1, auth, org, from, to, reportType) == FetchReportUrl(p2, auth, org, from, to, reportType)
  {
    var page := SalesReportsUrl(org);
    PostbacksAgree(p1, p2, auth, page, from, to, reportType);
    SameExchangesSameOutcome(p1, p2, auth, page, FormData(from, to, reportType));
  }

  /** Two portals that answer such postbacks alike answer every postback of the form data alike. */
  lemma PostbacksAgree(p1: Portal, p2: Portal, auth: string, page: string, from: DateTime, to: DateTime, reportType: string)
    requires ValidDateTime(from) && ValidDateTime(to)
    requires forall d, c :: CarriesRequest(d, c, auth, from, to, reportType) ==> p1.postForm(page, d, c) == p2.postForm(page, d, c)
    ensures forall fields, cookies :: AuthCookie in cookies && cookies[AuthCookie] == auth ==>
      p1.postForm(page, fields + FormData(from, to, reportType), cookies) == p2.postForm(page, fields + FormData(from, to, reportType), cookies)
  {
    forall fields, cookies | AuthCookie in cookies && cookies[AuthCookie] == auth
      ensures p1.postForm(page, fields + FormData(from, to, reportType), cookies) == p2.postForm(page, fields + FormData(from, to, reportType), cookies)
    {
      OverlayCarriesRequest(fields, cookies, auth, from, to, reportType);
    }
  }

  /** Overlaying the form data on any harvested fields carries the report type and the dates. */
  lemma OverlayCarriesRequest(fields: map<string, string>, cookies: map<string, string>, auth: string, from: DateTime, to: DateTime, reportType: string)
    requires ValidDateTime(from) && ValidDateTime(to)
    requires AuthCookie in cookies && cookies[AuthCookie] == auth
    ensures CarriesRequest(fields + FormData(from, to, reportType), cookies, auth, from, to, reportType)
  {
  }

  /** The URL step depends only on the page's answer and on the answer to the one postback it sends. */
  lemma SameExchangesSameOutcome(p1: Portal, p2: Portal, auth: string, page: string, overlay: map<string, string>)
    requires p1.fetchPage(page, map[AuthCookie := auth]) == p2.fetchPage(page, map[AuthCookie := auth])
    requires forall fields, cookies :: AuthCookie in cookies && cookies[AuthCookie] == auth ==>
      p1.postForm(page, fields + overlay, cookies) == p2.postForm(page, fields + overlay, cookies)
    ensures FetchReportUrlAt(p1, auth, page, overlay) == FetchReportUrlAt(p2, auth, page, overlay)
  {
  }

  /**
   * `get_product_customisations`: the report URL, the download, and the
   * filtered file, as `Delivers` describes them for the outcome of the URL
   * step.
   */
  function GetProductCustomisations(portal: Portal, key: string, auth: string, org: string, from: DateTime, to: DateTime, reportType: string): (r: Result<Artifact, ReportError>)
    requires ValidDateTime(from) && ValidDateTime(to)
    ensures Delivers(portal, key, FetchReportUrl(portal, auth, org, from, to, reportType), r)
    ensures r.Ok? ==> r.value.path == ReportFileName
  {
    Deliver(portal, key, FetchReportUrl(portal, auth, org, from, to, reportType))
  }

  /**
   * What the workflow makes of the URL step's outcome `link`: its error comes
   * back unchanged; a missing URL and a failed download are errors of their
   * own; otherwise the file, under its fixed name, holds the filtered lines of
   * the CSV downloaded from the URL with the link's cookies.
   */
  predicate Delivers(portal: Portal, key: string, link: Result<ReportLink, ReportError>, r: Result<Artifact, ReportError>) {
    && (link.Err? ==> r == Err(link.error))
    && (link.Ok? && link.value.url.None? ==> r == Err(ReportUrlMissing))
    && (link.Ok? && link.value.url.Some? && portal.download(link.value.url.value, link.value.cookies).status != 200
        ==> r == Err(FileStatus))
    && (link.Ok? && link.value.url.Some? && portal.download(link.value.url.value, link.value.cookies).status == 200
        ==> r == Ok(Artifact(ReportFileName, FilterCsv(portal.download(link.value.url.value, link.value.cookies).lines, key))))
  }

  /** The download and the filter, given the outcome of the URL step. */
  function Deliver(portal: Portal, key: string, link: Result<ReportLink, ReportError>): (r: Result<Artifact, ReportError>)
    ensures Delivers(portal, key, link, r)
    ensures r.Ok? ==> r.value.path == ReportFileName
    ensures r.Ok? ==>
      link.Ok? && link.value.url.Some?
      && r.value.lines == FilterCsv(portal.download(link.value.url.value, link.value.cookies).lines, key)
  {
    var found :- link;
    if found.url.None? then Err(ReportUrlMissing)
    else
      var file := portal.download(found.url.value, found.cookies);
      if file.status != 200 then Err(FileStatus)
      else Ok(Artifact(ReportFileName, FilterCsv(file.lines, key)))
  }

  /**
   * A rendered report that says "no transactions" ends the workflow with
   * that error, whatever the download would have answered.
   */
  lemma NoTransactionsReported(portal: Portal, key: string, auth: string, org: string, from: DateTime, to: DateTime, reportType: string)
    requires ValidDateTime(from) && ValidDateTime(to)
    ensures var ctx := SessionFor(portal, auth, org);
      var resp := if ctx.Ok? then portal.postForm(SalesReportsUrl(org), PostbackData(ctx.value.fields, from, to, reportType), ctx.value.cookies)
        else PostResponse(0, "", None);
      ctx.Ok? && resp.status == 200 && ViewerRendered(resp) && Contains(resp.body, NoTransactionsText)
      ==> GetProductCustomisations(portal, key, auth, org, from, to, reportType) == Err(NoTransactions)
  {
  }

  /**
   * A found export URL is the CSV link built from the leftmost complete
   * `ExportUrlBase":"..."` match in the body, unescaped.
   */
  lemma ExportUrlFromLeftmostMatch(resp: PostResponse, cookies: map<string, string>) returns (p: nat, cap: string)
    requires ClassifyResponse(resp, cookies).Ok? && ClassifyResponse(resp, cookies).value.url.Some?
    ensures MatchesAt(resp.body, p, cap) && Unescape(cap) != ""
    ensures forall p', c :: 0 <= p' < p ==> !MatchesAt(resp.body, p', c)
    ensures ClassifyResponse(resp, cookies).value.url.value == UrlPrefix + Unescape(cap) + UrlSuffix
  {
    cap := FindExportBase(resp.body).value;
    p := ExportBaseLeftmost(resp.body);
  }

  /**
   * A rendered report whose body opens with the marker and the portal's
   * escaping of a non-empty `x` links to the CSV export of `x`.
   */
  lemma EscapedExportBase(resp: PostResponse, cookies: map<string, string>, x: string, rest: string)
    requires resp.status == 200 && ViewerRendered(resp) && !Contains(resp.body, NoTransactionsText)
    requires Plain(x) && NoBackslash(x) && x != ""
    requires resp.body == Marker + Escape(x) + "\"" + rest
    ensures ClassifyResponse(resp, cookies) == Ok(ReportLink(Some(UrlPrefix + x + UrlSuffix), cookies))
  {
    LeadingExportBase(x, rest);
    UnescapeEscape(x);
  }

  /** A body with no complete match anywhere is refused once the earlier checks pass. */
  lemma NoMatchMeansNotFound(resp: PostResponse, cookies: map<string, string>)
    requires resp.status == 200 && ViewerRendered(resp) && !Contains(resp.body, NoTransactionsText)
    requires forall p, c :: !MatchesAt(resp.body, p, c)
    ensures ClassifyResponse(resp, cookies) == Err(ExportUrlNotFound)
  {
    ExportBaseAbsent(resp.body);
  }

  /**
   * The login page ends the workflow with the login error, whatever the
   * postback and the download would have answered: neither is consulted.
   */
  lemma LoginPageStopsWorkflow(
    fetchPage: (string, map<string, string>) -> PageResponse,
    post1: (string, map<string, string>, map<string, string>) -> PostResponse,
    post2: (string, map<string, string>, map<string, string>) -> PostResponse,
    download1: (string, map<string, string>) -> FileResponse,
    download2: (string, map<string, string>) -> FileResponse,
    key: string, auth: string, org: string, from: DateTime, to: DateTime, reportType: string)
    requires ValidDateTime(from) && ValidDateTime(to)
    requires fetchPage(SalesReportsUrl(org), map[AuthCookie := auth]).page.title.Title?
    requires Contains(fetchPage(SalesReportsUrl(org), map[AuthCookie := auth]).page.title.text, "Login")
    ensures GetProductCustomisations(Portal(fetchPage, post1, download1), key, auth, org, from, to, reportType) == Err(LoginRedirect)
    ensures GetProductCustomisations(Portal(fetchPage, post2, download2), key, auth, org, from, to, reportType) == Err(LoginRedirect)
  {
  }

  /** A non-200 postback yields no URL, and the workflow then fails on the missing URL. */
  lemma FailedPostbackFails(portal: Portal, key: string, auth: string, org: string, from: DateTime, to: DateTime, reportType: string)
    requires ValidDateTime(from) && ValidDateTime(to)
    ensures var ctx := SessionFor(portal, auth, org);
      ctx.Ok? && PostbackResponse(portal, org, ctx.value, from, to, reportType).status != 200
      ==> GetProductCustomisations(portal, key, auth, org, from, to, reportType) == Err(ReportUrlMissing)
  {
    var ctx := SessionFor(portal, auth, org);
    if ctx.Ok? && PostbackResponse(portal, org, ctx.value, from, to, reportType).status != 200 {
      assert FetchReportUrl(portal, auth, org, from, to, reportType) == Ok(ReportLink(None, map[]));
    }
  }

  /**
   * A delivered report is the filter applied to a CSV that was downloaded
   * with the caller's token as the authentication cookie, from a link on the
   * portal's host ending in `CSV`; every request was authenticated with it.
   */
  lemma DeliveredReport(portal: Portal, key: string, auth: string, org: string, from: DateTime, to: DateTime, reportType: string)
    returns (url: string, jar: map<string, string>)
    requires ValidDateTime(from) && ValidDateTime(to)
    ensures GetProductCustomisations(portal, key, auth, org, from, to, reportType).Ok? ==>
      && AuthCookie in jar && jar[AuthCookie] == auth
      && StartsWith(url, UrlPrefix) && url[|url| - |UrlSuffix|..] == UrlSuffix
      && portal.download(url, jar).status == 200
      && GetProductCustomisations(portal, key, auth, org, from, to, reportType)
         == Ok(Artifact(ReportFileName, FilterCsv(portal.download(url, jar).lines, key)))
  {
    url, jar := "", map[];
    var link := FetchReportUrl(portal, auth, org, from, to, reportType);
    if GetProductCustomisations(portal, key, auth, org, from, to, reportType).Ok? {
      assert link.Ok? && link.value.url.Some?;
      url, jar := link.value.url.value, link.value.cookies;
      var page := SalesReportsUrl(org);
      var ctx := SessionAt(portal, auth, page).value;
      var resp := portal.postForm(page, ctx.fields + FormData(from, to, reportType), ctx.cookies);
      assert link == ClassifyResponse(resp, ctx.cookies);
    }
  }
}
